=== FILE: README.md ===
# Crypto Bull/Bear dashboard: a verified model of its analysis core

The dashboard downloads OHLC candles for a few cryptocurrencies from the
CoinGecko API and resamples them to a chosen timeframe (4H … 1W). It then
classifies each series as BULLISH or BEARISH from the crossover of its 12- and
21-period exponential moving averages (EMAs), and shows the result as a
colour dot, an emoji, a five-slot strength bar and crossover markers on a price
chart. The chart module also defines a trend heatmap builder, modelled as
`ChartVisualizer.TrendHeatmap`, which the dashboard script does not call.

This project models the computational core of that pipeline in Dafny and
proves what it promises. Prices are exact `real`s and timestamps are `int`
milliseconds.

- `base.dfy` (`Base`): `Option` and small min/max helpers.
- `trend_analyzer.dfy` (`TrendAnalyzer`) models `TrendAnalyzer`:
  - the `adjust=False` EMA recurrence;
  - the backward scan of the last five adjacent pairs for the nearest crossover;
  - the trend label, the strength (0.6 / 0.8 / 1.0) and the result flags.

  The classification `Classify` takes arbitrary short/long series, so the label
  and scan properties do not depend on EMA arithmetic. `Analyze` plugs in the
  two EMAs.
- `coingecko_api.dfy` (`CoinGeckoApi`) models the pure parts of `CoinGeckoAPI`:
  - the quantisation of the requested lookback to the endpoint's accepted values;
  - `resample_data`: fixed-width buckets `origin + ((t - origin) / width) * width`,
    each non-empty bucket summarised as first open / max high / min low /
    last close, with empty buckets dropped.

  `Resample` is the computation: a stable sort by timestamp (`SortByTime`), as
  the data-frame library orders an unsorted index before binning, followed by
  `Aggregate`, the binning of a time-ordered series. `IsResamplingOf` is an
  independent, order-free definition of what a resampling is, and
  `ResampleIsResampling` connects the two for input in any order.
- `chart_visualizer.dfy` (`ChartVisualizer`) models:
  - `_find_crossovers`, using the same crossover predicate `KindAt` as the analyzer;
  - the "last five crossovers" marker selection;
  - the signed-strength matrix of `create_trend_heatmap` (defined there, not
    called by the dashboard script).

  `ScanAgreesWithCrossovers` proves that the analyzer's backward scan and the
  chart's forward enumeration agree.
- `app.dfy` (`App`) models the dashboard script:
  - the timeframe → lookback table;
  - the `fetch_crypto_data` gate (download → resample → at least 25 periods →
    analyse), with the HTTP download as a function parameter. A successful fetch
    also carries the two EMA columns the analyzer writes into the frame, which
    is where the chart reads them;
  - `get_trend_display` and the five-slot signal bar.

## Model

| member | source | states |
|---|---|---|
| TrendAnalyzer.Alpha | trend_analyzer.py:10-12 | The smoothing factor of a span lies in (0, 1] and satisfies alpha·(span+1) = 2: 2/13 for span 12, 2/22 for span 21. |
| TrendAnalyzer.Ema | trend_analyzer.py:10-17 | The EMA has the length of the closes. Its first value is the first close, and each later value is alpha·close + (1−alpha)·previous (`IsEma`). |
| TrendAnalyzer.EmaUnique | trend_analyzer.py:10-12 | The adjust=False recurrence determines the EMA: every series satisfying `IsEma` equals `Ema`. |
| TrendAnalyzer.EmaBounded | trend_analyzer.py:10-12 | If all closes lie in [lo, hi], every EMA value lies in [lo, hi] (it is a convex combination of past closes). |
| TrendAnalyzer.KindAt | trend_analyzer.py:33-41 | A pair is bullish iff short ≤ long before and short > long after, and bearish iff short ≥ long before and short < long after. It is neither iff neither holds. |
| TrendAnalyzer.ScanBack | trend_analyzer.py:32-42 | The scan from i periods back returns the nearest crossing pair at most min(6, n)−1 periods back, with its kind. It returns none iff no pair in that window crosses. |
| TrendAnalyzer.RecentCrossover | trend_analyzer.py:31-42 | With fewer than two values nothing is reported. Otherwise periods-ago lies in [1, min(5, n−1)] and the reported pair crosses in the reported direction. No nearer pair crosses, and nothing is reported iff none of the last five pairs crosses. |
| TrendAnalyzer.Classify | trend_analyzer.py:23-67 | Never NEUTRAL; BULLISH iff short > long at the last index, BEARISH otherwise (ties included). Strength is 0.6, 0.8 or 1.0, and 0.6 when no crossover is found. Strength 1.0 implies a crossover at most 2 periods ago. At most one cross flag is set, and periods-ago is None iff neither is. The reported cross holds and is the nearest. EMA values and the price/EMA flags equal the last-index comparisons. |
| TrendAnalyzer.Analyze | trend_analyzer.py:14-71 | There is a result iff the closes are non-empty. It satisfies `ValidAnalysis`, reports the last values of the two EMAs, and is BULLISH iff EMA12 > EMA21 at the end. |
| TrendAnalyzer.ClassifyReportsScan | trend_analyzer.py:27-42 | The classification's cross flags and periods-ago are exactly the backward scan's report: none iff the scan finds none, otherwise its distance and direction. |
| TrendAnalyzer.CrossSidePersists | trend_analyzer.py:33-42 | After a crossing pair, with no later crossing pair, the short series stays on the crossover's side of the long one (≥ after bullish, ≤ after bearish). |
| TrendAnalyzer.ReportedCrossMatchesTrendUnlessTied | trend_analyzer.py:44-50 | A reported bearish cross implies BEARISH. A reported bullish cross with a non-BULLISH label forces the two EMAs to be exactly equal at the end. |
| TrendAnalyzer.StrengthFromRecency | trend_analyzer.py:44-54 | When the EMAs do not end tied, strength is 1.0 iff a crossover is ≤ 2 periods ago, 0.8 iff one is 3–5 periods ago, and 0.6 iff none is found. A reported cross points the same way as the label. |
| TrendAnalyzer.TieAfterBullishCross | trend_analyzer.py:45-54 | Closes [1, 2, 35/143] end with tied EMAs two periods after a bullish cross. The label is BEARISH with the bullish flag set, and strength is 0.8 because the recency bonus ignores direction. |
| TrendAnalyzer.FlatSeriesIsBearish | trend_analyzer.py:24-50 | A constant series is BEARISH with no crossover and strength 0.6. |
| TrendAnalyzer.StepUpSeries | trend_analyzer.py:14-67 | A non-decreasing series that first rises at index m is BULLISH. Pair m is a bullish crossover and no other pair crosses. The crossover is reported with strength 1.0 or 0.8 when within five periods, otherwise none with 0.6. |
| TrendAnalyzer.RisingThirtyBars | trend_analyzer.py:14-67 | Thirty strictly rising closes are BULLISH with no recent crossover and strength 0.6. |
| TrendAnalyzer.JumpAfterFlatRun | trend_analyzer.py:14-67 | 25 closes at 100 followed by 5 at 200 are BULLISH, with a bullish cross 5 periods ago and strength 0.8. |
| CoinGeckoApi.LeastAtLeast | coingecko_api.py:28 | None iff every candidate is below the request; otherwise the least candidate that is ≥ the request. |
| CoinGeckoApi.ApiDays | coingecko_api.py:25-28 | The lookback sent is always one of 1, 7, 14, 30, 90, 180, 365. For requests ≤ 365 it is the least accepted value ≥ the request; above 365 it is 365. |
| CoinGeckoApi.ApiDaysFixesValidDays | coingecko_api.py:27-28 | An accepted lookback is sent unchanged. |
| CoinGeckoApi.WidthOf | coingecko_api.py:81-89 | The width of each rule in milliseconds, a whole number of hours: 4 h, 6 h, 12 h, 1 day, 2 days, 3 days and 7 days for `'4h'` … `'1W'`. |
| CoinGeckoApi.WidthOfInjective | coingecko_api.py:81-89 | Two timeframes have the same width iff they are the same timeframe, so every rule bins differently. |
| CoinGeckoApi.ParseTimeframe | coingecko_api.py:81-92 | A timeframe is recognised iff it is one of the seven `timeframe_map` keys, and each key selects its own rule: "4H" ↦ 4 h, "6H" ↦ 6 h, "12H" ↦ 12 h, "1D" ↦ 1 day, "2D" ↦ 2 days, "3D" ↦ 3 days, "1W" ↦ 1 week. |
| CoinGeckoApi.BucketStart | coingecko_api.py:100 | The bucket start lies on the grid origin + k·width, and the timestamp lies in [bucket start, bucket start + width): the start is the grid point at or just below it. |
| CoinGeckoApi.BucketStartMonotone | coingecko_api.py:100 | Later timestamps never fall in earlier buckets. |
| CoinGeckoApi.MaxHigh | coingecko_api.py:102 | The `max` of a bucket's highs: at least every high, and equal to one of them. |
| CoinGeckoApi.MinLow | coingecko_api.py:103 | The `min` of a bucket's lows: at most every low, and equal to one of them. |
| CoinGeckoApi.Aggregate | coingecko_api.py:100-105 | The binning step, in series order: no more rows than bars, empty iff the input is empty, every row stamped with its bucket start. |
| CoinGeckoApi.AggregateRowsHaveBars | coingecko_api.py:100-105 | Every row belongs to a bucket that holds at least one input bar, so empty buckets are dropped. |
| CoinGeckoApi.AggregateAscending | coingecko_api.py:100-105 | For time-ordered input, the rows are strictly ascending in time. |
| CoinGeckoApi.AggregateCovers | coingecko_api.py:100-105 | Every bucket holding an input bar has a row. |
| CoinGeckoApi.AggregateSummarises | coingecko_api.py:100-105 | For time-ordered input, every row is its bucket's first open, max high, min low and last close. |
| CoinGeckoApi.AggregateIsResampling | coingecko_api.py:100-105 | For time-ordered input the binning meets `IsResamplingInOrder`: ascending, summarising, covering. |
| CoinGeckoApi.AggregateNoAdjacentTies | coingecko_api.py:100-105 | For input in any order, no two neighbouring rows share a bucket. |
| CoinGeckoApi.AggregateFixesGridSeries | coingecko_api.py:100-105 | A series stamped on bucket starts with no two neighbours in one bucket aggregates to itself. |
| CoinGeckoApi.AggregateIdempotent | coingecko_api.py:100-105 | For input in any order, binning the binned series again returns it unchanged. |
| CoinGeckoApi.AggregateKeepsLowBelowHigh | coingecko_api.py:100-105 | For input in any order, if every bar has low ≤ high, so does every row. |
| CoinGeckoApi.InsertByTime | coingecko_api.py:100 | Inserting a bar adds exactly that bar: the multiset grows by it and nothing else. |
| CoinGeckoApi.InsertByTimeOrdered | coingecko_api.py:100 | Inserting into a time-ordered series keeps it time-ordered. |
| CoinGeckoApi.SortByTime | coingecko_api.py:100 | The sorted series is a permutation of the bars (same multiset, same length) and is time-ordered. |
| CoinGeckoApi.SortByTimeIsStable | coingecko_api.py:100 | The sort is stable: for every timestamp, the bars stamped with it appear in the same relative order as in the input. |
| CoinGeckoApi.SortByTimeKeepsOrderedSeries | coingecko_api.py:100 | A series already oldest first is left unchanged. |
| CoinGeckoApi.Resample | coingecko_api.py:100-105 | For input in any order: no more rows than bars, empty iff the input is empty, rows stamped with bucket starts and strictly ascending. |
| CoinGeckoApi.ResampleRowsSummarise | coingecko_api.py:100-105 | For input in any order, every row belongs to an occupied bucket. It has the open of an earliest bar of the bucket, its highest high, its lowest low and the close of a latest bar. |
| CoinGeckoApi.ResampleCovers | coingecko_api.py:100-105 | For input in any order, every bucket holding a bar has a row. |
| CoinGeckoApi.ResampleIsResampling | coingecko_api.py:100-105 | For input in any order, the output meets the order-free definition `IsResamplingOf`, and row for row it is `IsResamplingInOrder` of the stably sorted input. |
| CoinGeckoApi.ResampleMergesSplitBucket | coingecko_api.py:100-105 | Bars arriving in buckets A, B, A, with the A bars in time order and the B bar the latest, give two rows, while binning in arrival order would give three: the sort matters for the row count. A is the bucket starting at `origin`, which is arbitrary. |
| CoinGeckoApi.ResampleOfOrderedSeries | coingecko_api.py:100-105 | On a time-ordered series (the provider's order), resampling is the binning alone. |
| CoinGeckoApi.ResampleIdempotent | coingecko_api.py:100-105 | For input in any order, resampling a resampled series at the same width returns it unchanged. |
| CoinGeckoApi.ResampleKeepsLowBelowHigh | coingecko_api.py:100-105 | For input in any order, if every bar has low ≤ high, so does every output row. |
| CoinGeckoApi.ResampleData | coingecko_api.py:76-111 | Empty input gives empty output, and an unknown timeframe returns the input unchanged. Otherwise the output is `Resample` (sort, then bin). The fewer-than-25 check only raises the `sparse` warning flag and never changes rows. The output is never longer than the input. |
| ChartVisualizer.CrossoversBefore | chart_visualizer.py:173-181 | Entries before position m are exactly the crossing pairs ending before m, with their kinds, in strictly increasing position. |
| ChartVisualizer.FindCrossovers | chart_visualizer.py:171-183 | Positions lie in [1, n−1] and strictly increase, so each appears at most once. (bullish, i) is present iff pair i crosses upward, and (bearish, i) iff it crosses downward. |
| ChartVisualizer.EntriesAreCrossings | chart_visualizer.py:176-181 | An entry list holding exactly the crossing positions, each with its kind, has a (bullish, i) entry iff pair i crosses up and a (bearish, i) entry iff it crosses down. |
| ChartVisualizer.LastCrossoverIsLatest | chart_visualizer.py:171-183 | The last entry is the latest crossing pair; with no entries, no pair crosses. |
| ChartVisualizer.ScanAgreesWithCrossovers | chart_visualizer.py:175-181 | The analyzer reports nothing iff the enumeration is empty or its last entry lies before n−5. Otherwise the report is that entry's kind, n − position periods ago (together with trend_analyzer.py:31-42). |
| ChartVisualizer.AnnotatedCrossovers | chart_visualizer.py:154 | The marked crossovers are the last min(5, count) entries: a suffix of the enumeration. |
| ChartVisualizer.ReportedCrossoverIsMarked | chart_visualizer.py:152-154 | Whenever the analyzer reports a crossover, the newest chart marker is that crossover. |
| ChartVisualizer.HeatValue | chart_visualizer.py:200-212 | The signed strength of one analysis: +strength for BULLISH, −strength for BEARISH, 0 for any other label. |
| ChartVisualizer.HeatCell | chart_visualizer.py:199-217 | A cell is 0 when the timeframe has no analysis, and otherwise the analysis's signed strength. |
| ChartVisualizer.TrendHeatmap | chart_visualizer.py:188-221 | One row per crypto and one column per timeframe. A cell is +strength for BULLISH, −strength for BEARISH, 0 for another label, and 0 when the timeframe is missing. |
| ChartVisualizer.HeatmapOfAnalyses | chart_visualizer.py:194-221 | For analyses the classifier produced, a cell is 0 iff the timeframe is missing and positive iff the trend is BULLISH. Otherwise its magnitude is the strength. |
| App.TimeframeDays | app.py:82-92 | Table lookup with 30 as fallback; every lookback is 30, 90 or 365. |
| App.TimeframeTableComplete | app.py:42-92 | The table's keys are exactly the offered timeframes, every offered timeframe is recognised by the resampler, and the preselected one (index 3) is daily. |
| App.TimeframeDaysNeedNoQuantising | app.py:82-92 | Every lookback the dashboard requests is an accepted value and passes through quantisation unchanged (with coingecko_api.py:27-28). |
| App.Closes | trend_analyzer.py:16-17 | The close column: same length, element-wise the bars' closes. |
| App.FetchCryptoData | app.py:95-118 | A result exists iff the download is non-empty and the resampled series has at least 25 rows. A result carries exactly that series, its analysis (a valid one) and the EMA12/EMA21 columns of its closes (trend_analyzer.py:16-21); the analyzer only ever sees a series of at least 25 rows. |
| App.FetchGate | app.py:99-113 | A non-empty download never resamples to an empty series. With a recognised timeframe a result exists iff the resampled download has ≥ 25 rows; with an unknown one iff the download has ≥ 25 bars. |
| App.FetchedSeriesIsResampling | app.py:98-118 | For a download in any order, a fetched series is a resampling of it in the order-free sense (ascending, one summary row per occupied bucket), and row for row the binning of the stably sorted download. |
| App.FetchedChartMatchesAnalysis | app.py:116-118 | On the EMA columns a fetch carries, the analysis reports a crossover iff the chart's latest crossover lies within the last five pairs. Then the newest marker is that crossover: same direction, and its position plus periods-ago is the series length (with chart_visualizer.py:147-154). |
| App.TrendDisplay | app.py:127-138 | BULLISH ↦ (🟢, 🐂), BEARISH ↦ (🔴, 🐻), any other label ↦ (🟡, ⚖️), each in both directions. |
| App.SignalColor | app.py:185 | The filled-slot colour is 🟢 iff BULLISH, 🔴 iff BEARISH and 🟡 iff any other label. |
| App.SignalColorMatchesDisplay | app.py:185 | The signal bar's colour is the status dot's colour and is never white. |
| App.TruncateTowardZero | app.py:184 | Python's `int()`: for x ≥ 0 the result n has n ≤ x < n+1, and for x < 0, n−1 < x ≤ n. |
| App.StrengthBars | app.py:184 | `int(strength * 5)`: for strength ≥ 0 the count n has n ≤ 5·strength < n+1, and for negative strength n−1 < 5·strength ≤ n. |
| App.Repeat | app.py:186 | Repeating a symbol n times gives n copies, or nothing when n ≤ 0. |
| App.SignalText | app.py:186 | The bar is max(bars, 0) colour slots then max(5 − bars, 0) white slots: slot i is the trend colour iff i < bars, and ⚪ otherwise. |
| App.SignalTextHasFiveSlots | app.py:184-186 | For strength in [0, 1] the bar count is floor(5·strength) in [0, 5]. The text has exactly 5 symbols: that many in the trend colour, then ⚪. |
| App.StrengthBarsOfAnalyses | app.py:184 | Strengths 0.6, 0.8 and 1.0 give 3, 4 and 5 coloured slots. |
| App.FetchedDisplay | app.py:153-186 | For a fetched analysis the status is 🟢/🐂 iff EMA12 > EMA21 at the end of the resampled closes, and 🔴/🐻 otherwise. The bar has 5 symbols, and at least the first three are in the status colour. |

## Left out

- HTTP, JSON and the API key are not modelled: `requests.Session`, `raise_for_status`, the Pro-key header and base-URL switch, and `get_market_data`. The download is the function parameter `download` of `App.FetchCryptoData`, called with the quantised lookback.
- The exception handlers are not modelled: the `except` branches of `get_historical_data`, `resample_data` and `fetch_crypto_data`, and the "index is not a DatetimeIndex" branch. The model's data is always well typed.
- `pd.to_datetime`, `pd.to_numeric(errors='coerce')` and NaN handling are not modelled. Bars are assumed clean, so `dropna` removes exactly the empty buckets.
- CoinGeckoApi.Resample: pandas' calendar anchoring is abstracted to an integer `origin` parameter. The bucket widths (4 h, 6 h, 12 h, 1, 2, 3 and 7 days) are kept. For the hourly and 1–3 day rules the bins are left-closed and labelled by their left edge, as in the model. The `'1W'` rule is right-closed and labelled on Sundays, but pandas moves each right edge to the last instant of its Sunday, so a week holds exactly the bars from a Monday 00:00 up to, not including, the next Monday 00:00. With origin at a Monday 00:00 the model's grouping is the same. The row stamps differ: the model stamps each week with its Monday, pandas with the closing Sunday six days later. The row count and the OHLC values agree.
- CoinGeckoApi.Aggregate: it bins the bars in series order and never sorts. On unordered input it differs from pandas' sort-then-bin (buckets A, B, A give three rows). `Resample` and `ResampleData` apply it only after `SortByTime`.
- CoinGeckoApi.AggregateAscending: stated for time-ordered input only; on unordered input the binning alone is not ascending. The any-order statement about the real pipeline is `CoinGeckoApi.Resample`'s ensures.
- CoinGeckoApi.AggregateSummarises: stated for time-ordered input only. The any-order statement is `CoinGeckoApi.ResampleRowsSummarise`.
- CoinGeckoApi.AggregateIsResampling: stated for time-ordered input only. The any-order statement is `CoinGeckoApi.ResampleIsResampling`.
- CoinGeckoApi.ResampleIsResampling: the order-free `IsResamplingOf` says the open comes from an earliest bar and the close from a latest one; among bars with the same timestamp it does not say which. That tie is fixed by the row-for-row `IsResamplingInOrder` of the stable sort (`SortByTimeIsStable`).
- ChartVisualizer.FindCrossovers: an entry carries the position of the crossing pair rather than its timestamp label. Positions and labels correspond one to one on the dashboard's series, so the `cross_date in df.index` test always succeeds.
- IEEE floating-point rounding is not modelled. This covers `0.6 + 0.2`, `int(strength * 5)` near bar boundaries and the EMA arithmetic; the model uses exact reals.
- The `price_change` metric, the `:.2f` and `$` formatting, and the summary table's text columns are not modelled. They are formatting only.
- Plotly figure construction (candles, EMA lines, marker symbols, hover text, layout) and all Streamlit rendering are not modelled. This includes the page configuration, sidebar, spinners and warnings; the warnings appear only as the `None` results and the `sparse` flag.
- `st.cache_data` / `st.cache_resource` caching and the 30-second auto-refresh are not modelled. They are framework and timing plumbing.
- App.TrendDisplay: the unused `strength` argument of `get_trend_display` is dropped.
- ChartVisualizer.FindCrossovers and the other chart lemmas take the two EMA series as parameters. Inside a fetch they are the `ema12`/`ema21` columns of `App.Fetched`, which stand for the columns `analyze_ema_crossover` writes into the caller's frame in place (trend_analyzer.py:19-21); the in-place mutation itself is not modelled.

## The recency bonus ignores direction

The +0.2 recency bonus (trend_analyzer.py:53-54) applies to any crossover at
most two periods back, whatever its direction. This differs from a
direction-matched bonus in exactly one case: a bullish cross at most two
periods back followed by exactly equal EMAs at the last index, which is
labelled BEARISH (line 24 uses a strict `>`). `TrendAnalyzer.TieAfterBullishCross` exhibits the case (BEARISH,
bullish flag set, strength 0.8), and `TrendAnalyzer.StrengthFromRecency` proves
that whenever the EMAs do not end tied, the bonus and the flags agree with the
label.

=== FILE: app.dfy ===
/** The pure parts of the dashboard script: which lookback each timeframe asks
    for, the fetch → resample → analyse gate, and the mapping of an analysis to
    its colour, emoji and five-slot signal bar. */
module App {
  import opened Base
  import opened TrendAnalyzer
  import opened CoinGeckoApi
  import opened ChartVisualizer

  // ---------------------------------------------------------------------------
  // Timeframes and lookbacks
  // ---------------------------------------------------------------------------

  /** The timeframes offered in the sidebar, in display order. */
  const TIMEFRAMES: seq<string> := ["4H", "6H", "12H", "1D", "2D", "3D", "1W"]

  /** The sidebar preselects the fourth entry. */
  const DEFAULT_TIMEFRAME_INDEX: nat := 3

  /** Days of history requested per timeframe: hourly-resolution lookbacks for the
      intraday frames, daily ones for the rest. */
  const TIMEFRAME_DAYS: map<string, int> :=
    map["4H" := 30, "6H" := 30, "12H" := 30, "1D" := 90, "2D" := 365, "3D" := 365, "1W" := 365]

  /** Lookback for a timeframe missing from the table. */
  const DEFAULT_DAYS: int := 30

  /** `timeframe_days.get(selected_timeframe, 30)`. */
  function TimeframeDays(name: string): (days: int)
    ensures name in TIMEFRAME_DAYS ==> days == TIMEFRAME_DAYS[name]
    ensures name !in TIMEFRAME_DAYS ==> days == DEFAULT_DAYS
    ensures days == 30 || days == 90 || days == 365
  {
    if name in TIMEFRAME_DAYS then TIMEFRAME_DAYS[name] else DEFAULT_DAYS
  }

  /** The table covers exactly the offered timeframes, every offered timeframe is
      one the resampler recognises, and the preselected one is daily. */
  lemma TimeframeTableComplete()
    ensures forall name :: name in TIMEFRAMES <==> name in TIMEFRAME_DAYS
    ensures forall name :: name in TIMEFRAMES ==> ParseTimeframe(name).Some?
    ensures DEFAULT_TIMEFRAME_INDEX < |TIMEFRAMES| && ParseTimeframe(TIMEFRAMES[DEFAULT_TIMEFRAME_INDEX]) == Some(D1)
  {
    assert TIMEFRAME_DAYS.Keys == {"4H", "6H", "12H", "1D", "2D", "3D", "1W"};
  }

  /** Every lookback the dashboard asks for is one the OHLC endpoint accepts, so
      the quantisation inside the client leaves it as it is. */
  lemma TimeframeDaysNeedNoQuantising(name: string)
    ensures TimeframeDays(name) in VALID_DAYS
    ensures ApiDays(TimeframeDays(name)) == TimeframeDays(name)
  {
    ApiDaysFixesValidDays(TimeframeDays(name));
  }

  // ---------------------------------------------------------------------------
  // fetch_crypto_data
  // ---------------------------------------------------------------------------

  /** The close column of a bar series. */
  function Closes(bars: seq<Bar>): (c: seq<real>)
    ensures |c| == |bars|
    ensures forall i :: 0 <= i < |bars| ==> c[i] == bars[i].close
  {
    seq(|bars|, i requires 0 <= i < |bars| => bars[i].close)
  }

  /** What a successful fetch hands back: the resampled series, the two EMA
      columns the analyzer adds to it (which the chart reads), and the analysis. */
  datatype Fetched = Fetched(series: seq<Bar>, ema12: seq<real>, ema21: seq<real>, analysis: TrendResult)

  /** `fetch_crypto_data`. The HTTP download is the parameter `download`, called
      with the lookback the client actually sends; `origin` anchors the buckets.
      Any of the three warnings ends the pipeline with no result. */
  function FetchCryptoData(download: int -> seq<Bar>, days: int, timeframe: string, origin: int): (r: Option<Fetched>)
    ensures var raw := download(ApiDays(days));
      r.Some? <==> |raw| > 0 && |ResampleData(raw, timeframe, origin).bars| >= MIN_PERIODS
    ensures var raw := download(ApiDays(days));
      r.Some? ==>
        && r.value.series == ResampleData(raw, timeframe, origin).bars
        && |r.value.series| >= MIN_PERIODS
        && !ResampleData(raw, timeframe, origin).sparse
        && Analyze(Closes(r.value.series)) == Some(r.value.analysis)
        && ValidAnalysis(r.value.analysis)
        && r.value.ema12 == ShortEma(Closes(r.value.series))
        && r.value.ema21 == LongEma(Closes(r.value.series))
        && |r.value.ema12| == |r.value.ema21| == |r.value.series|
  {
    var raw := download(ApiDays(days));
    if |raw| == 0 then None
    else
      var resampled := ResampleData(raw, timeframe, origin).bars;
      if |resampled| == 0 then None
      else if |resampled| < MIN_PERIODS then None
      else
        var closes := Closes(resampled);
        var analysis := Analyze(closes);
        Some(Fetched(resampled, ShortEma(closes), LongEma(closes), analysis.value))
  }

  /** The gate in terms of the download alone: with a recognised timeframe a result
      exists exactly when the download fills at least 25 buckets, and with an
      unrecognised one exactly when the download itself has 25 bars. The
      "resampled series is empty" warning can never fire, since a non-empty
      download always fills a bucket. */
  lemma FetchGate(download: int -> seq<Bar>, days: int, timeframe: string, origin: int)
    ensures var raw := download(ApiDays(days));
      && (|raw| > 0 ==> |ResampleData(raw, timeframe, origin).bars| > 0)
      && (ParseTimeframe(timeframe).Some? ==>
            (FetchCryptoData(download, days, timeframe, origin).Some? <==>
               |Resample(raw, origin, WidthOf(ParseTimeframe(timeframe).value))| >= MIN_PERIODS))
      && (ParseTimeframe(timeframe).None? ==>
            (FetchCryptoData(download, days, timeframe, origin).Some? <==> |raw| >= MIN_PERIODS))
  {
  }

  /** A successful fetch holds a genuine resampling of the download, in whatever
      order the bars arrived: ascending rows, one per occupied bucket, each its
      bucket's OHLC summary; row for row it bins the stably sorted download. */
  lemma FetchedSeriesIsResampling(download: int -> seq<Bar>, days: int, timeframe: string, origin: int)
    requires ParseTimeframe(timeframe).Some?
    ensures var r, raw := FetchCryptoData(download, days, timeframe, origin), download(ApiDays(days));
      var width := WidthOf(ParseTimeframe(timeframe).value);
      r.Some? ==>
        && IsResamplingOf(r.value.series, raw, origin, width)
        && IsResamplingInOrder(r.value.series, SortByTime(raw), origin, width)
  {
    ResampleIsResampling(download(ApiDays(days)), origin, WidthOf(ParseTimeframe(timeframe).value));
  }

  /** The chart and the analysis of one fetch agree: on the EMA columns the
      analysis leaves behind, the analysis reports a crossover exactly when the
      chart's latest crossover lies within the lookback, and then the newest
      marker drawn is that crossover, at the reported distance from the end. */
  lemma FetchedChartMatchesAnalysis(download: int -> seq<Bar>, days: int, timeframe: string, origin: int)
    ensures var r := FetchCryptoData(download, days, timeframe, origin);
      r.Some? ==>
        var f := r.value;
        var cs := FindCrossovers(f.ema12, f.ema21);
        var marks := AnnotatedCrossovers(cs);
        && (f.analysis.crossoverPeriodsAgo.None? <==>
              |cs| == 0 || cs[|cs| - 1].index < |f.series| - LOOKBACK)
        && (f.analysis.crossoverPeriodsAgo.Some? ==>
              && |marks| > 0
              && marks[|marks| - 1].index + f.analysis.crossoverPeriodsAgo.value == |f.series|
              && (marks[|marks| - 1].kind == BullishCross <==> f.analysis.recentBullishCross)
              && (marks[|marks| - 1].kind == BearishCross <==> f.analysis.recentBearishCross))
  {
    var r := FetchCryptoData(download, days, timeframe, origin);
    if r.Some? {
      var f := r.value;
      var closes := Closes(f.series);
      assert f.analysis == Classify(closes, f.ema12, f.ema21);
      ClassifyReportsScan(closes, f.ema12, f.ema21);
      ScanAgreesWithCrossovers(f.ema12, f.ema21);
      ReportedCrossoverIsMarked(f.ema12, f.ema21);
    }
  }

  // ---------------------------------------------------------------------------
  // get_trend_display and the signal bar
  // ---------------------------------------------------------------------------

  const GREEN: char := '🟢'
  const RED: char := '🔴'
  const YELLOW: char := '🟡'
  const WHITE: char := '⚪'

  const BULL: string := "🐂"
  const BEAR: string := "🐻"
  const SCALES: string := "⚖️"

  /** Number of slots in the signal bar. */
  const SIGNAL_SLOTS: int := 5

  /** `get_trend_display`: the colour dot and emoji for a label. The strength
      argument of the source is unused and left out. */
  function TrendDisplay(trend: Trend): (d: (char, string))
    ensures trend == BULLISH <==> d == (GREEN, BULL)
    ensures trend == BEARISH <==> d == (RED, BEAR)
    ensures trend == NEUTRAL <==> d == (YELLOW, SCALES)
  {
    match trend
    case BULLISH => (GREEN, BULL)
    case BEARISH => (RED, BEAR)
    case NEUTRAL => (YELLOW, SCALES)
  }

  /** The colour of the filled signal slots, chosen separately in the source. */
  function SignalColor(trend: Trend): (c: char)
    ensures c == GREEN <==> trend == BULLISH
    ensures c == RED <==> trend == BEARISH
    ensures c == YELLOW <==> trend == NEUTRAL
  {
    match trend
    case BULLISH => GREEN
    case BEARISH => RED
    case NEUTRAL => YELLOW
  }

  /** The signal bar is drawn in the same colour as the status dot, and no filled
      slot is ever white. */
  lemma SignalColorMatchesDisplay(trend: Trend)
    ensures SignalColor(trend) == TrendDisplay(trend).0
    ensures SignalColor(trend) != WHITE
  {
  }

  /** Python's `int()` on a number: truncation toward zero. */
  function TruncateTowardZero(x: real): (n: int)
    ensures x >= 0.0 ==> n as real <= x < n as real + 1.0
    ensures x < 0.0 ==> n as real - 1.0 < x <= n as real
  {
    if x >= 0.0 then x.Floor else -((-x).Floor)
  }

  /** `strength_bars = int(strength * 5)`. */
  function StrengthBars(strength: real): (n: int)
    ensures strength >= 0.0 ==> n as real <= 5.0 * strength < n as real + 1.0
    ensures strength < 0.0 ==> n as real - 1.0 < 5.0 * strength <= n as real
  {
    TruncateTowardZero(strength * SIGNAL_SLOTS as real)
  }

  /** `c * n` on a one-character string: empty for n <= 0. */
  function Repeat(c: char, n: int): (r: string)
    ensures |r| == if n > 0 then n else 0
    ensures forall i :: 0 <= i < |r| ==> r[i] == c
    decreases n
  {
    if n <= 0 then [] else [c] + Repeat(c, n - 1)
  }

  /** `signal_text`: the filled slots in the trend's colour, then white ones up
      to five. */
  function SignalText(trend: Trend, strength: real): (s: string)
    ensures var bars := StrengthBars(strength);
      && |s| == (if bars > 0 then bars else 0) + (if bars < SIGNAL_SLOTS then SIGNAL_SLOTS - bars else 0)
      && forall i :: 0 <= i < |s| ==> s[i] == if i < bars then SignalColor(trend) else WHITE
  {
    var bars := StrengthBars(strength);
    Repeat(SignalColor(trend), bars) + Repeat(WHITE, SIGNAL_SLOTS - bars)
  }

  /** For a strength in [0, 1] the bar has exactly five slots: floor(5·strength)
      coloured ones, then white ones. */
  lemma SignalTextHasFiveSlots(trend: Trend, strength: real)
    requires 0.0 <= strength <= 1.0
    ensures var bars, text := StrengthBars(strength), SignalText(trend, strength);
      && 0 <= bars <= SIGNAL_SLOTS
      && bars as real <= strength * SIGNAL_SLOTS as real < bars as real + 1.0
      && |text| == SIGNAL_SLOTS
      && (forall i :: 0 <= i < bars ==> text[i] == SignalColor(trend))
      && (forall i :: bars <= i < SIGNAL_SLOTS ==> text[i] == WHITE)
  {
    var bars := StrengthBars(strength);
    assert bars as real <= strength * 5.0;
    assert bars as real < 6.0;
  }

  /** The three strengths the analyzer produces fill three, four and five slots. */
  lemma StrengthBarsOfAnalyses()
    ensures StrengthBars(BASE_STRENGTH) == 3
    ensures StrengthBars(CROSS_STRENGTH) == 4
    ensures StrengthBars(MAX_STRENGTH) == 5
  {
  }

  /** End to end: a successful fetch shows a green/bull or red/bear status exactly
      as EMA12 ends above or not above EMA21 on the resampled closes, and a
      five-slot bar with at least three slots in that colour. */
  lemma FetchedDisplay(download: int -> seq<Bar>, days: int, timeframe: string, origin: int)
    ensures var r := FetchCryptoData(download, days, timeframe, origin);
      r.Some? ==>
        var closes, a := Closes(r.value.series), r.value.analysis;
        var text := SignalText(a.trend, a.strength);
        && (TrendDisplay(a.trend) == (GREEN, BULL) <==>
              ShortEma(closes)[|closes| - 1] > LongEma(closes)[|closes| - 1])
        && (TrendDisplay(a.trend) == (RED, BEAR) <==>
              ShortEma(closes)[|closes| - 1] <= LongEma(closes)[|closes| - 1])
        && |text| == SIGNAL_SLOTS
        && (forall i :: 0 <= i < 3 ==> text[i] == TrendDisplay(a.trend).0)
  {
    var r := FetchCryptoData(download, days, timeframe, origin);
    if r.Some? {
      var a := r.value.analysis;
      StrengthBarsOfAnalyses();
      SignalTextHasFiveSlots(a.trend, a.strength);
      SignalColorMatchesDisplay(a.trend);
    }
  }
}

=== FILE: base.dfy ===
/** Small shared vocabulary: an optional value (Python's None) and minimum/maximum. */
module Base {

  /** A value that may be absent, as Python's `None` is used throughout the dashboard. */
  datatype Option<+T> = None | Some(value: T)

  function Min(a: int, b: int): int {
    if a <= b then a else b
  }

  function MinReal(a: real, b: real): real {
    if a <= b then a else b
  }

  function MaxReal(a: real, b: real): real {
    if a >= b then a else b
  }
}

=== FILE: chart_visualizer.dfy ===
/** The pure parts of `ChartVisualizer`: the forward crossover enumeration used
    for chart markers, the choice of which markers are drawn, and the value
    matrix behind the trend heatmap. */
module ChartVisualizer {
  import opened Base
  import opened TrendAnalyzer

  /** Only this many of the most recent crossovers get a marker. */
  const ANNOTATED_CROSSOVERS: nat := 5

  /** A crossover found at position `index`: the pair (index-1, index) crosses. */
  datatype Crossover = Crossover(kind: CrossKind, index: nat)

  /** The loop of `_find_crossovers` over the pairs ending before `m`. */
  function CrossoversBefore(s: seq<real>, l: seq<real>, m: nat): (cs: seq<Crossover>)
    requires |s| == |l| && m <= |s|
    ensures forall e :: e in cs ==> 1 <= e.index < m && KindAt(s, l, e.index) == Some(e.kind)
    ensures forall k :: 1 <= k < m && KindAt(s, l, k).Some? ==> Crossover(KindAt(s, l, k).value, k) in cs
    ensures forall a, b :: 0 <= a < b < |cs| ==> cs[a].index < cs[b].index
    decreases m
  {
    if m <= 1 then []
    else
      var prev := CrossoversBefore(s, l, m - 1);
      match KindAt(s, l, m - 1)
      case Some(kind) => prev + [Crossover(kind, m - 1)]
      case None => prev
  }

  /** `_find_crossovers`: every crossing pair of the whole series, oldest first,
      each position at most once. */
  function FindCrossovers(s: seq<real>, l: seq<real>): (cs: seq<Crossover>)
    requires |s| == |l|
    ensures forall e :: e in cs ==> 1 <= e.index < |s|
    ensures forall a, b :: 0 <= a < b < |cs| ==> cs[a].index < cs[b].index
    ensures forall k :: 1 <= k < |s| ==> (Crossover(BullishCross, k) in cs <==> BullishCrossAt(s, l, k))
    ensures forall k :: 1 <= k < |s| ==> (Crossover(BearishCross, k) in cs <==> BearishCrossAt(s, l, k))
  {
    var cs := CrossoversBefore(s, l, |s|);
    EntriesAreCrossings(s, l, cs);
    cs
  }

  /** An entry list that holds exactly the crossing positions before `|s|`, read
      per direction. */
  lemma EntriesAreCrossings(s: seq<real>, l: seq<real>, cs: seq<Crossover>)
    requires |s| == |l|
    requires forall e :: e in cs ==> 1 <= e.index < |s| && KindAt(s, l, e.index) == Some(e.kind)
    requires forall k :: 1 <= k < |s| && KindAt(s, l, k).Some? ==> Crossover(KindAt(s, l, k).value, k) in cs
    ensures forall k :: 1 <= k < |s| ==> (Crossover(BullishCross, k) in cs <==> BullishCrossAt(s, l, k))
    ensures forall k :: 1 <= k < |s| ==> (Crossover(BearishCross, k) in cs <==> BearishCrossAt(s, l, k))
  {
    forall k | 1 <= k < |s|
      ensures Crossover(BullishCross, k) in cs <==> BullishCrossAt(s, l, k)
      ensures Crossover(BearishCross, k) in cs <==> BearishCrossAt(s, l, k)
    {
      var kind := KindAt(s, l, k);
      if kind.Some? {
        assert Crossover(kind.value, k) in cs;
      }
      if Crossover(BullishCross, k) in cs {
        assert KindAt(s, l, Crossover(BullishCross, k).index) == Some(BullishCross);
      }
      if Crossover(BearishCross, k) in cs {
        assert KindAt(s, l, Crossover(BearishCross, k).index) == Some(BearishCross);
      }
    }
  }

  /** The last entry is the latest crossing pair of the series; with no entry
      there is no crossing pair at all. */
  lemma LastCrossoverIsLatest(s: seq<real>, l: seq<real>)
    requires |s| == |l|
    ensures var cs := FindCrossovers(s, l);
      && (|cs| == 0 ==> forall k :: 1 <= k < |s| ==> KindAt(s, l, k).None?)
      && (|cs| > 0 ==>
            && KindAt(s, l, cs[|cs| - 1].index) == Some(cs[|cs| - 1].kind)
            && forall k :: cs[|cs| - 1].index < k < |s| ==> KindAt(s, l, k).None?)
  {
    var cs := FindCrossovers(s, l);
    forall k | 1 <= k < |s| && KindAt(s, l, k).Some?
      ensures |cs| > 0 && k <= cs[|cs| - 1].index
    {
      var e := Crossover(KindAt(s, l, k).value, k);
      assert e in cs;
      var a :| 0 <= a < |cs| && cs[a] == e;
      if a < |cs| - 1 {
        assert cs[a].index < cs[|cs| - 1].index;
      }
    }
    if |cs| > 0 {
      assert cs[|cs| - 1] in cs;
    }
  }

  /** The analyzer's backward scan and the chart's forward enumeration agree:
      the analyzer reports a crossover exactly when the chart's last one lies
      within the lookback, and then it is that crossover, counted from the end. */
  lemma ScanAgreesWithCrossovers(s: seq<real>, l: seq<real>)
    requires |s| == |l|
    ensures var cs, rc := FindCrossovers(s, l), RecentCrossover(s, l);
      && (rc.None? <==> |cs| == 0 || cs[|cs| - 1].index < |s| - LOOKBACK)
      && (rc.Some? ==>
            |cs| > 0 && rc.value == RecentCross(cs[|cs| - 1].kind, |s| - cs[|cs| - 1].index))
  {
    var cs, rc := FindCrossovers(s, l), RecentCrossover(s, l);
    LastCrossoverIsLatest(s, l);
    if |cs| > 0 {
      var last := cs[|cs| - 1];
      if rc.Some? {
        var c := |s| - rc.value.periodsAgo;
        assert KindAt(s, l, c).Some?;
        assert c <= last.index;
        assert last.index <= c;
      } else {
        assert KindAt(s, l, last.index).Some?;
      }
    }
  }

  /** `crossovers[-5:]`: the markers drawn are the most recent (at most) five. */
  function AnnotatedCrossovers(cs: seq<Crossover>): (r: seq<Crossover>)
    ensures |r| == Min(ANNOTATED_CROSSOVERS, |cs|)
    ensures r == cs[|cs| - |r|..]
  {
    if |cs| <= ANNOTATED_CROSSOVERS then cs else cs[|cs| - ANNOTATED_CROSSOVERS..]
  }

  /** Whenever the analyzer reports a crossover, the chart draws a marker for
      it: the newest marker is that crossover. */
  lemma ReportedCrossoverIsMarked(s: seq<real>, l: seq<real>)
    requires |s| == |l|
    ensures var rc, marks := RecentCrossover(s, l), AnnotatedCrossovers(FindCrossovers(s, l));
      rc.Some? ==>
        |marks| > 0 && marks[|marks| - 1] == Crossover(rc.value.kind, |s| - rc.value.periodsAgo)
  {
    ScanAgreesWithCrossovers(s, l);
  }

  // ---------------------------------------------------------------------------
  // Trend heatmap
  // ---------------------------------------------------------------------------

  /** The signed strength of one analysis: positive for BULLISH, negative for
      BEARISH, zero for any other label. */
  function HeatValue(a: TrendResult): (v: real)
    ensures a.trend == BULLISH ==> v == a.strength
    ensures a.trend == BEARISH ==> v == -a.strength
    ensures a.trend == NEUTRAL ==> v == 0.0
  {
    match a.trend
    case BULLISH => a.strength
    case BEARISH => -a.strength
    case NEUTRAL => 0.0
  }

  /** One cell: a timeframe without an analysis is zero. */
  function HeatCell(byTimeframe: map<string, TrendResult>, timeframe: string): (v: real)
    ensures timeframe !in byTimeframe ==> v == 0.0
    ensures timeframe in byTimeframe ==> v == HeatValue(byTimeframe[timeframe])
  {
    if timeframe in byTimeframe then HeatValue(byTimeframe[timeframe]) else 0.0
  }

  /** The `z` matrix of `create_trend_heatmap`: one row per crypto, in the order
      of `trendData`, one column per timeframe. */
  function TrendHeatmap(trendData: seq<(string, map<string, TrendResult>)>, timeframes: seq<string>): (z: seq<seq<real>>)
    ensures |z| == |trendData|
    ensures forall i :: 0 <= i < |z| ==> |z[i]| == |timeframes|
    ensures forall i, j :: 0 <= i < |z| && 0 <= j < |timeframes| ==>
              z[i][j] == HeatCell(trendData[i].1, timeframes[j])
    ensures forall i, j :: 0 <= i < |z| && 0 <= j < |timeframes| ==>
              var m, tf := trendData[i].1, timeframes[j];
              && (tf !in m ==> z[i][j] == 0.0)
              && (tf in m && m[tf].trend == BULLISH ==> z[i][j] == m[tf].strength)
              && (tf in m && m[tf].trend == BEARISH ==> z[i][j] == -m[tf].strength)
              && (tf in m && m[tf].trend == NEUTRAL ==> z[i][j] == 0.0)
  {
    seq(|trendData|, i requires 0 <= i < |trendData| =>
      seq(|timeframes|, j requires 0 <= j < |timeframes| => HeatCell(trendData[i].1, timeframes[j])))
  }

  /** For analyses the classifier produced, a cell is zero exactly when the
      timeframe is missing, its sign is the trend, and its magnitude is one of
      the three strengths. */
  lemma HeatmapOfAnalyses(trendData: seq<(string, map<string, TrendResult>)>, timeframes: seq<string>)
    requires forall i, tf :: 0 <= i < |trendData| && tf in trendData[i].1 ==> ValidAnalysis(trendData[i].1[tf])
    ensures var z := TrendHeatmap(trendData, timeframes);
      forall i, j :: 0 <= i < |z| && 0 <= j < |timeframes| ==>
        var present := timeframes[j] in trendData[i].1;
        && (z[i][j] == 0.0 <==> !present)
        && (z[i][j] > 0.0 <==> present && trendData[i].1[timeframes[j]].trend == BULLISH)
        && (present ==> (z[i][j] == trendData[i].1[timeframes[j]].strength ||
                         z[i][j] == -trendData[i].1[timeframes[j]].strength))
  {
    var z := TrendHeatmap(trendData, timeframes);
    forall i, j | 0 <= i < |z| && 0 <= j < |timeframes|
      ensures timeframes[j] in trendData[i].1 ==> ValidAnalysis(trendData[i].1[timeframes[j]])
    {
    }
  }
}

=== FILE: coingecko_api.dfy ===
/** The pure parts of `CoinGeckoAPI`: quantising a requested lookback to one the
    provider accepts, and aggregating OHLC bars into fixed-width buckets.

    Timestamps are integers (milliseconds). A bucket is identified by its start,
    origin + ((t - origin) / width) * width; Dafny's `/` rounds towards minus
    infinity for a positive divisor, so every bar falls in the bucket that
    starts at or before it. The origin stands for the anchoring the data-frame
    library chooses and is a parameter of the model. */
module CoinGeckoApi {
  import opened Base

  // ---------------------------------------------------------------------------
  // Lookback quantisation
  // ---------------------------------------------------------------------------

  /** The lookbacks the OHLC endpoint accepts, in days. */
  const VALID_DAYS: seq<int> := [1, 7, 14, 30, 90, 180, 365]
  /** `min(..., default=365)` when no accepted lookback is long enough. */
  const FALLBACK_DAYS: int := 365

  /** The least element of `ds` that is at least `days`, if there is one. */
  function LeastAtLeast(ds: seq<int>, days: int): (r: Option<int>)
    ensures r.None? <==> forall d :: d in ds ==> d < days
    ensures r.Some? ==> r.value in ds && r.value >= days
    ensures r.Some? ==> forall d :: d in ds && d >= days ==> r.value <= d
  {
    if |ds| == 0 then None
    else
      var rest := LeastAtLeast(ds[1..], days);
      assert forall d :: d in ds <==> d == ds[0] || d in ds[1..];
      assert ds[0] in ds;
      if ds[0] >= days && (rest.None? || ds[0] <= rest.value) then Some(ds[0])
      else rest
  }

  /** `api_days` in `get_historical_data`. */
  function ApiDays(days: int): (r: int)
    ensures r in VALID_DAYS
    ensures days <= FALLBACK_DAYS ==> r >= days && forall d :: d in VALID_DAYS && d >= days ==> r <= d
    ensures days > FALLBACK_DAYS ==> r == FALLBACK_DAYS
  {
    match LeastAtLeast(VALID_DAYS, days)
    case Some(d) => d
    case None => FALLBACK_DAYS
  }

  /** Quantising is idempotent: an accepted lookback is sent as it is. */
  lemma ApiDaysFixesValidDays(days: int)
    requires days in VALID_DAYS
    ensures ApiDays(days) == days
  {
  }

  // ---------------------------------------------------------------------------
  // Bars, timeframes and buckets
  // ---------------------------------------------------------------------------

  datatype Bar = Bar(t: int, open: real, high: real, low: real, close: real)

  /** The bucket widths `resample_data` knows. */
  datatype Timeframe = H4 | H6 | H12 | D1 | D2 | D3 | W1

  type Width = w: int | w > 0 witness 1

  const HOUR_MS: int := 3_600_000
  const DAY_MS: int := 24 * HOUR_MS

  /** The width of a pandas rule: `'nH'` is n hours, `'nD'` n days and `'1W'`
      seven days, in milliseconds. */
  function WidthOf(tf: Timeframe): (w: Width)
    ensures w % HOUR_MS == 0
    ensures tf == H4 ==> w == 14_400_000
    ensures tf == H6 ==> w == 21_600_000
    ensures tf == H12 ==> w == 43_200_000
    ensures tf == D1 ==> w == 86_400_000
    ensures tf == D2 ==> w == 172_800_000
    ensures tf == D3 ==> w == 259_200_000
    ensures tf == W1 ==> w == 604_800_000
  {
    match tf
    case H4 => 4 * HOUR_MS
    case H6 => 6 * HOUR_MS
    case H12 => 12 * HOUR_MS
    case D1 => DAY_MS
    case D2 => 2 * DAY_MS
    case D3 => 3 * DAY_MS
    case W1 => 7 * DAY_MS
  }

  /** Different rules bin at different widths. */
  lemma WidthOfInjective(tf1: Timeframe, tf2: Timeframe)
    ensures WidthOf(tf1) == WidthOf(tf2) <==> tf1 == tf2
  {
  }

  /** The keys of `timeframe_map`. */
  function ParseTimeframe(name: string): (r: Option<Timeframe>)
    ensures r.Some? <==> name in {"4H", "6H", "12H", "1D", "2D", "3D", "1W"}
    ensures name == "4H" ==> r == Some(H4)
    ensures name == "6H" ==> r == Some(H6)
    ensures name == "12H" ==> r == Some(H12)
    ensures name == "1D" ==> r == Some(D1)
    ensures name == "2D" ==> r == Some(D2)
    ensures name == "3D" ==> r == Some(D3)
    ensures name == "1W" ==> r == Some(W1)
  {
    if name == "4H" then Some(H4)
    else if name == "6H" then Some(H6)
    else if name == "12H" then Some(H12)
    else if name == "1D" then Some(D1)
    else if name == "2D" then Some(D2)
    else if name == "3D" then Some(D3)
    else if name == "1W" then Some(W1)
    else None
  }

  /** `b` is a point of the grid `origin + k * width`. */
  predicate GridPoint(b: int, origin: int, width: Width) {
    (b - origin) % width == 0
  }

  /** The start of the bucket holding time `t`: the point of the grid
      `origin + k * width` at or just below `t`. */
  function BucketStart(t: int, origin: int, width: Width): (b: int)
    ensures GridPoint(b, origin, width)
    ensures b <= t < b + width
  {
    var k := (t - origin) / width;
    DivOfMultiple(k, width);
    origin + k * width
  }

  /** A bucket start lies in its own bucket. */
  lemma BucketStartOnGrid(t: int, origin: int, width: Width)
    ensures var b := BucketStart(t, origin, width); BucketStart(b, origin, width) == b
  {
    var k := (t - origin) / width;
    DivOfMultiple(k, width);
  }

  lemma DivOfMultiple(k: int, width: Width)
    ensures (k * width) / width == k
  {
    var q, r := (k * width) / width, (k * width) % width;
    assert k * width == q * width + r && 0 <= r < width;
    assert (k - q) * width == r;
    if k - q >= 1 {
      MulAtLeast(k - q, width);
    } else if k - q <= -1 {
      MulAtLeast(q - k, width);
    }
  }

  /** Buckets follow the order of time. */
  lemma BucketStartMonotone(t1: int, t2: int, origin: int, width: Width)
    requires t1 <= t2
    ensures BucketStart(t1, origin, width) <= BucketStart(t2, origin, width)
  {
    var b1, b2 := BucketStart(t1, origin, width), BucketStart(t2, origin, width);
    if b2 < b1 {
      // b2 <= t2 < b2 + width and both starts lie on the same grid
      var k1, k2 := (t1 - origin) / width, (t2 - origin) / width;
      assert b1 - b2 == (k1 - k2) * width;
      assert k1 - k2 >= 1 by {
        if k1 - k2 <= 0 {
          MulNonPositiveInt(k1 - k2, width);
        }
      }
      MulAtLeast(k1 - k2, width);
      assert false;
    }
  }

  lemma MulNonPositiveInt(a: int, w: Width)
    requires a <= 0
    ensures a * w <= 0
  {
  }

  lemma MulAtLeast(a: int, w: Width)
    requires a >= 1
    ensures a * w >= w
  {
  }

  /** Time order of a series: the provider returns bars oldest first. */
  ghost predicate TimeOrdered(bars: seq<Bar>) {
    forall i, j :: 0 <= i <= j < |bars| ==> bars[i].t <= bars[j].t
  }

  ghost predicate StrictlyAscending(bars: seq<Bar>) {
    forall i, j :: 0 <= i < j < |bars| ==> bars[i].t < bars[j].t
  }

  /** Every bar is stamped with the start of its own bucket. */
  ghost predicate OnGrid(bars: seq<Bar>, origin: int, width: Width) {
    forall i :: 0 <= i < |bars| ==> BucketStart(bars[i].t, origin, width) == bars[i].t
  }

  // ---------------------------------------------------------------------------
  // Aggregation: open = first, high = max, low = min, close = last
  // ---------------------------------------------------------------------------

  /** The bars of `bars` that fall in the bucket starting at `start`, in order. */
  function InBucket(bars: seq<Bar>, start: int, origin: int, width: Width): (g: seq<Bar>)
    ensures |g| <= |bars|
  {
    if |bars| == 0 then []
    else
      (if BucketStart(bars[0].t, origin, width) == start then [bars[0]] else [])
      + InBucket(bars[1..], start, origin, width)
  }

  function MaxHigh(g: seq<Bar>): (h: real)
    requires |g| > 0
    ensures forall i :: 0 <= i < |g| ==> g[i].high <= h
    ensures exists i :: 0 <= i < |g| && g[i].high == h
  {
    if |g| == 1 then g[0].high
    else
      var rest := MaxHigh(g[1..]);
      assert forall i :: 1 <= i < |g| ==> g[i] == g[1..][i - 1];
      MaxReal(g[0].high, rest)
  }

  function MinLow(g: seq<Bar>): (lo: real)
    requires |g| > 0
    ensures forall i :: 0 <= i < |g| ==> lo <= g[i].low
    ensures exists i :: 0 <= i < |g| && g[i].low == lo
  {
    if |g| == 1 then g[0].low
    else
      var rest := MinLow(g[1..]);
      assert forall i :: 1 <= i < |g| ==> g[i] == g[1..][i - 1];
      MinReal(g[0].low, rest)
  }

  /** The output row of one non-empty bucket. */
  function Summary(start: int, g: seq<Bar>): Bar
    requires |g| > 0
  {
    Bar(start, g[0].open, MaxHigh(g), MinLow(g), g[|g| - 1].close)
  }

  /** Fold a bar into the row of the bucket it opens: it comes first in time,
      so it supplies the open, and the row keeps its close. */
  function Absorb(b: Bar, row: Bar): Bar {
    Bar(row.t, b.open, MaxReal(b.high, row.high), MinReal(b.low, row.low), row.close)
  }

  /** The binning step of resampling, applied to the bars in series order: a bar
      opens the row of its bucket when the next row belongs to the same bucket,
      and starts a new row otherwise. On a time-ordered series (which `Resample`
      feeds it) this is one row per bucket that holds at least one bar, oldest
      bucket first. */
  function Aggregate(bars: seq<Bar>, origin: int, width: Width): (out: seq<Bar>)
    ensures |out| <= |bars|
    ensures |out| == 0 <==> |bars| == 0
    ensures |out| > 0 ==> out[0].t == BucketStart(bars[0].t, origin, width)
    ensures OnGrid(out, origin, width)
  {
    if |bars| == 0 then []
    else
      var b := bars[0];
      var start := BucketStart(b.t, origin, width);
      var rest := Aggregate(bars[1..], origin, width);
      BucketStartOnGrid(b.t, origin, width);
      if |rest| > 0 && rest[0].t == start then [Absorb(b, rest[0])] + rest[1..]
      else [b.(t := start)] + rest
  }

  /** The bucket's bars are exactly the bars of the series stamped into it. */
  lemma {:induction false} InBucketMembers(bars: seq<Bar>, start: int, origin: int, width: Width)
    ensures forall b :: b in InBucket(bars, start, origin, width) ==>
              b in bars && BucketStart(b.t, origin, width) == start
    ensures forall i :: 0 <= i < |bars| && BucketStart(bars[i].t, origin, width) == start ==>
              bars[i] in InBucket(bars, start, origin, width)
    decreases |bars|
  {
    if |bars| > 0 {
      InBucketMembers(bars[1..], start, origin, width);
      assert forall i :: 1 <= i < |bars| ==> bars[i] == bars[1..][i - 1];
    }
  }

  /** Some bar of `bars` falls in the bucket starting at `start`. */
  ghost predicate BucketHasBar(bars: seq<Bar>, start: int, origin: int, width: Width) {
    exists i :: 0 <= i < |bars| && BucketStart(bars[i].t, origin, width) == start
  }

  ghost predicate RowsHaveBars(out: seq<Bar>, bars: seq<Bar>, origin: int, width: Width) {
    forall j :: 0 <= j < |out| ==> BucketHasBar(bars, out[j].t, origin, width)
  }

  /** Every row is the first-open/max-high/min-low/last-close summary of the
      non-empty bucket it is stamped with. */
  ghost predicate RowsSummarise(out: seq<Bar>, bars: seq<Bar>, origin: int, width: Width) {
    forall j :: 0 <= j < |out| ==> RowSummarises(out[j], bars, origin, width)
  }

  ghost predicate RowSummarises(row: Bar, bars: seq<Bar>, origin: int, width: Width) {
    var g := InBucket(bars, row.t, origin, width);
    |g| > 0 && row == Summary(row.t, g)
  }

  /** Every bucket that holds a bar has a row. */
  ghost predicate RowsCover(out: seq<Bar>, bars: seq<Bar>, origin: int, width: Width) {
    forall i :: 0 <= i < |bars| ==>
      exists j :: 0 <= j < |out| && out[j].t == BucketStart(bars[i].t, origin, width)
  }

  /** What binning a time-ordered series means, read row for row against that
      order: ascending rows, one per bucket that holds a bar, each summarising
      the bucket's bars first to last. The order-free counterpart, stated over
      membership, is `IsResamplingOf`. */
  ghost predicate IsResamplingInOrder(out: seq<Bar>, bars: seq<Bar>, origin: int, width: Width) {
    && StrictlyAscending(out)
    && RowsSummarise(out, bars, origin, width)
    && RowsCover(out, bars, origin, width)
  }

  lemma {:induction false} LaterBarsLaterBuckets(bars: seq<Bar>, origin: int, width: Width)
    requires TimeOrdered(bars) && |bars| > 0
    ensures forall i :: 0 <= i < |bars| ==>
              BucketStart(bars[0].t, origin, width) <= BucketStart(bars[i].t, origin, width)
  {
    forall i | 0 <= i < |bars|
      ensures BucketStart(bars[0].t, origin, width) <= BucketStart(bars[i].t, origin, width)
    {
      BucketStartMonotone(bars[0].t, bars[i].t, origin, width);
    }
  }

  lemma {:induction false} InBucketEmpty(bars: seq<Bar>, start: int, origin: int, width: Width)
    requires forall i :: 0 <= i < |bars| ==> BucketStart(bars[i].t, origin, width) != start
    ensures InBucket(bars, start, origin, width) == []
    decreases |bars|
  {
    if |bars| > 0 {
      assert forall i :: 0 <= i < |bars| - 1 ==> bars[1..][i] == bars[i + 1];
      InBucketEmpty(bars[1..], start, origin, width);
    }
  }

  lemma SummaryCons(b: Bar, g: seq<Bar>, start: int)
    requires |g| > 0
    ensures Summary(start, [b] + g) == Absorb(b, Summary(start, g))
  {
    assert ([b] + g)[1..] == g;
  }

  /** Rows exist only for buckets that hold a bar (empty buckets are dropped). */
  lemma {:induction false} AggregateRowsHaveBars(bars: seq<Bar>, origin: int, width: Width)
    ensures RowsHaveBars(Aggregate(bars, origin, width), bars, origin, width)
    decreases |bars|
  {
    if |bars| > 0 {
      var tail := bars[1..];
      var out, rest := Aggregate(bars, origin, width), Aggregate(tail, origin, width);
      AggregateRowsHaveBars(tail, origin, width);
      forall j | 0 <= j < |rest|
        ensures BucketHasBar(bars, rest[j].t, origin, width)
      {
        assert BucketHasBar(tail, rest[j].t, origin, width);
        var i :| 0 <= i < |tail| && BucketStart(tail[i].t, origin, width) == rest[j].t;
        assert bars[i + 1] == tail[i];
      }
      assert BucketStart(bars[0].t, origin, width) == out[0].t;
    }
  }

  /** The rows of a time-ordered series start no earlier than its first bucket. */
  lemma RowsAfterFirstBucket(bars: seq<Bar>, origin: int, width: Width)
    requires TimeOrdered(bars) && |bars| > 0
    ensures var out := Aggregate(bars, origin, width);
      forall j :: 0 <= j < |out| ==> BucketStart(bars[0].t, origin, width) <= out[j].t
  {
    AggregateRowsHaveBars(bars, origin, width);
    LaterBarsLaterBuckets(bars, origin, width);
  }

  /** Rows come out in strictly ascending time. */
  lemma {:induction false} AggregateAscending(bars: seq<Bar>, origin: int, width: Width)
    requires TimeOrdered(bars)
    ensures StrictlyAscending(Aggregate(bars, origin, width))
    decreases |bars|
  {
    if |bars| > 1 {
      var tail := bars[1..];
      var start := BucketStart(bars[0].t, origin, width);
      var rest := Aggregate(tail, origin, width);
      AggregateAscending(tail, origin, width);
      RowsAfterFirstBucket(bars, origin, width);
      RowsAfterFirstBucket(tail, origin, width);
      BucketStartMonotone(bars[0].t, tail[0].t, origin, width);
      assert rest[0].t == BucketStart(tail[0].t, origin, width);
    }
  }

  /** Every bucket holding a bar gets a row. */
  lemma {:induction false} AggregateCovers(bars: seq<Bar>, origin: int, width: Width)
    ensures RowsCover(Aggregate(bars, origin, width), bars, origin, width)
    decreases |bars|
  {
    if |bars| > 0 {
      var tail := bars[1..];
      var start := BucketStart(bars[0].t, origin, width);
      var out, rest := Aggregate(bars, origin, width), Aggregate(tail, origin, width);
      AggregateCovers(tail, origin, width);
      forall i | 0 <= i < |bars|
        ensures exists j :: 0 <= j < |out| && out[j].t == BucketStart(bars[i].t, origin, width)
      {
        if i == 0 {
          assert out[0].t == start;
        } else {
          assert bars[i] == tail[i - 1];
          var j :| 0 <= j < |rest| && rest[j].t == BucketStart(tail[i - 1].t, origin, width);
          if |rest| > 0 && rest[0].t == start {
            assert out[j].t == rest[j].t;
          } else {
            assert out[j + 1].t == rest[j].t;
          }
        }
      }
    }
  }

  lemma InBucketCons(b: Bar, tail: seq<Bar>, start: int, origin: int, width: Width)
    ensures InBucket([b] + tail, start, origin, width) ==
              (if BucketStart(b.t, origin, width) == start then [b] else []) + InBucket(tail, start, origin, width)
  {
    assert ([b] + tail)[1..] == tail;
  }

  /** Each row summarises its bucket. */
  lemma {:induction false} AggregateSummarises(bars: seq<Bar>, origin: int, width: Width)
    requires TimeOrdered(bars)
    ensures RowsSummarise(Aggregate(bars, origin, width), bars, origin, width)
    decreases |bars|
  {
    if |bars| > 0 {
      var b, tail := bars[0], bars[1..];
      assert bars == [b] + tail;
      TimeOrderedTail(bars);
      var start := BucketStart(b.t, origin, width);
      var rest := Aggregate(tail, origin, width);
      AggregateSummarises(tail, origin, width);
      if |rest| > 0 && rest[0].t == start {
        AggregateAscending(tail, origin, width);
        SummarisesMerge(b, tail, rest, origin, width);
      } else {
        FirstBucketAlone(bars, origin, width);
        AggregateRowsHaveBars(tail, origin, width);
        SummarisesFresh(b, tail, rest, origin, width);
      }
    }
  }

  lemma TimeOrderedTail(bars: seq<Bar>)
    requires TimeOrdered(bars) && |bars| > 0
    ensures TimeOrdered(bars[1..])
  {
    assert forall i :: 0 <= i < |bars| - 1 ==> bars[1..][i] == bars[i + 1];
  }

  /** When the first bar's bucket is not the first row of the rest, no later
      bar shares it. */
  lemma FirstBucketAlone(bars: seq<Bar>, origin: int, width: Width)
    requires TimeOrdered(bars) && |bars| > 0
    requires var rest := Aggregate(bars[1..], origin, width);
      !(|rest| > 0 && rest[0].t == BucketStart(bars[0].t, origin, width))
    ensures forall i :: 1 <= i < |bars| ==>
              BucketStart(bars[i].t, origin, width) != BucketStart(bars[0].t, origin, width)
  {
    var start := BucketStart(bars[0].t, origin, width);
    if |bars| > 1 {
      var tail := bars[1..];
      assert tail[0] == bars[1];
      var first := BucketStart(bars[1].t, origin, width);
      assert first != start;
      BucketStartMonotone(bars[0].t, bars[1].t, origin, width);
      forall i | 1 <= i < |bars|
        ensures BucketStart(bars[i].t, origin, width) != start
      {
        BucketStartMonotone(bars[1].t, bars[i].t, origin, width);
      }
    }
  }

  /** The first bar opens a bucket that later bars already have a row for. */
  lemma SummarisesMerge(b: Bar, tail: seq<Bar>, rest: seq<Bar>, origin: int, width: Width)
    requires |rest| > 0 && rest[0].t == BucketStart(b.t, origin, width)
    requires StrictlyAscending(rest)
    requires RowsSummarise(rest, tail, origin, width)
    ensures RowsSummarise([Absorb(b, rest[0])] + rest[1..], [b] + tail, origin, width)
  {
    var out := [Absorb(b, rest[0])] + rest[1..];
    forall j | 0 <= j < |out|
      ensures RowSummarises(out[j], [b] + tail, origin, width)
    {
      if j == 0 {
        MergedRow(b, tail, rest[0], origin, width);
      } else {
        assert out[j] == rest[j];
        assert RowSummarises(rest[j], tail, origin, width);
        OtherRow(b, tail, rest[j], origin, width);
      }
    }
  }

  lemma MergedRow(b: Bar, tail: seq<Bar>, row: Bar, origin: int, width: Width)
    requires row.t == BucketStart(b.t, origin, width)
    requires RowSummarises(row, tail, origin, width)
    ensures RowSummarises(Absorb(b, row), [b] + tail, origin, width)
  {
    InBucketCons(b, tail, row.t, origin, width);
    SummaryCons(b, InBucket(tail, row.t, origin, width), row.t);
  }

  lemma OtherRow(b: Bar, tail: seq<Bar>, row: Bar, origin: int, width: Width)
    requires row.t != BucketStart(b.t, origin, width)
    requires RowSummarises(row, tail, origin, width)
    ensures RowSummarises(row, [b] + tail, origin, width)
  {
    InBucketCons(b, tail, row.t, origin, width);
    assert [] + InBucket(tail, row.t, origin, width) == InBucket(tail, row.t, origin, width);
  }

  lemma FreshRow(b: Bar, tail: seq<Bar>, origin: int, width: Width)
    requires forall i :: 0 <= i < |tail| ==> BucketStart(tail[i].t, origin, width) != BucketStart(b.t, origin, width)
    ensures RowSummarises(b.(t := BucketStart(b.t, origin, width)), [b] + tail, origin, width)
  {
    var start := BucketStart(b.t, origin, width);
    InBucketEmpty(tail, start, origin, width);
    InBucketCons(b, tail, start, origin, width);
    assert InBucket([b] + tail, start, origin, width) == [b];
  }

  /** The first bar opens a bucket of its own. */
  lemma SummarisesFresh(b: Bar, tail: seq<Bar>, rest: seq<Bar>, origin: int, width: Width)
    requires forall i :: 1 <= i < |tail| + 1 ==>
               BucketStart(([b] + tail)[i].t, origin, width) != BucketStart(b.t, origin, width)
    requires RowsHaveBars(rest, tail, origin, width)
    requires RowsSummarise(rest, tail, origin, width)
    ensures RowsSummarise([b.(t := BucketStart(b.t, origin, width))] + rest, [b] + tail, origin, width)
  {
    var start := BucketStart(b.t, origin, width);
    var out := [b.(t := start)] + rest;
    forall j | 0 <= j < |out|
      ensures RowSummarises(out[j], [b] + tail, origin, width)
    {
      if j == 0 {
        assert forall i :: 0 <= i < |tail| ==> tail[i] == ([b] + tail)[i + 1];
        FreshRow(b, tail, origin, width);
      } else {
        assert out[j] == rest[j - 1];
        assert RowSummarises(rest[j - 1], tail, origin, width);
        assert BucketHasBar(tail, rest[j - 1].t, origin, width);
        var i :| 0 <= i < |tail| && BucketStart(tail[i].t, origin, width) == rest[j - 1].t;
        assert ([b] + tail)[i + 1] == tail[i];
        OtherRow(b, tail, rest[j - 1], origin, width);
      }
    }
  }

  /** The aggregation of a time-ordered series is a resampling of it. */
  lemma AggregateIsResampling(bars: seq<Bar>, origin: int, width: Width)
    requires TimeOrdered(bars)
    ensures IsResamplingInOrder(Aggregate(bars, origin, width), bars, origin, width)
  {
    AggregateAscending(bars, origin, width);
    AggregateSummarises(bars, origin, width);
    AggregateCovers(bars, origin, width);
  }

  /** No two neighbouring rows share a timestamp. */
  ghost predicate NoAdjacentTies(bars: seq<Bar>) {
    forall j :: 0 < j < |bars| ==> bars[j - 1].t != bars[j].t
  }

  /** Aggregation never leaves two neighbouring rows in one bucket, whatever the
      order of its input. */
  lemma {:induction false} AggregateNoAdjacentTies(bars: seq<Bar>, origin: int, width: Width)
    ensures NoAdjacentTies(Aggregate(bars, origin, width))
    decreases |bars|
  {
    if |bars| > 0 {
      var b, tail := bars[0], bars[1..];
      var start := BucketStart(b.t, origin, width);
      var out, rest := Aggregate(bars, origin, width), Aggregate(tail, origin, width);
      AggregateNoAdjacentTies(tail, origin, width);
      if |rest| > 0 && rest[0].t == start {
        assert out == [Absorb(b, rest[0])] + rest[1..];
        assert forall j :: 0 <= j < |out| ==> out[j].t == rest[j].t;
      } else {
        assert out == [b.(t := start)] + rest;
        assert forall j :: 0 < j < |out| ==> out[j] == rest[j - 1];
      }
    }
  }

  /** A series stamped on bucket starts, with no two neighbours in one bucket,
      aggregates to itself. */
  lemma {:induction false} AggregateFixesGridSeries(bars: seq<Bar>, origin: int, width: Width)
    requires NoAdjacentTies(bars) && OnGrid(bars, origin, width)
    ensures Aggregate(bars, origin, width) == bars
    decreases |bars|
  {
    if |bars| > 0 {
      var tail := bars[1..];
      assert forall i :: 0 <= i < |tail| ==> tail[i] == bars[i + 1];
      AggregateFixesGridSeries(tail, origin, width);
      if |tail| > 0 {
        assert bars[0].t != tail[0].t;
      }
    }
  }

  /** Re-aggregating an aggregated series at the same width returns it unchanged. */
  lemma AggregateIdempotent(bars: seq<Bar>, origin: int, width: Width)
    ensures Aggregate(Aggregate(bars, origin, width), origin, width) == Aggregate(bars, origin, width)
  {
    AggregateNoAdjacentTies(bars, origin, width);
    AggregateFixesGridSeries(Aggregate(bars, origin, width), origin, width);
  }

  /** Every bar's low is at most its high. */
  ghost predicate LowBelowHigh(bars: seq<Bar>) {
    forall i :: 0 <= i < |bars| ==> bars[i].low <= bars[i].high
  }

  /** Well-formed bars (low <= high) aggregate to well-formed rows. */
  lemma {:induction false} AggregateKeepsLowBelowHigh(bars: seq<Bar>, origin: int, width: Width)
    requires LowBelowHigh(bars)
    ensures LowBelowHigh(Aggregate(bars, origin, width))
    decreases |bars|
  {
    if |bars| > 0 {
      var b, tail := bars[0], bars[1..];
      assert forall i :: 0 <= i < |tail| ==> tail[i] == bars[i + 1];
      AggregateKeepsLowBelowHigh(tail, origin, width);
      var start := BucketStart(b.t, origin, width);
      var out, rest := Aggregate(bars, origin, width), Aggregate(tail, origin, width);
      assert b.low <= b.high;
      if |rest| > 0 && rest[0].t == start {
        var row := Absorb(b, rest[0]);
        assert out == [row] + rest[1..];
        assert row.low <= b.low <= b.high <= row.high;
        forall j | 0 <= j < |out|
          ensures out[j].low <= out[j].high
        {
          if j > 0 {
            assert out[j] == rest[j];
          }
        }
      } else {
        assert out == [b.(t := start)] + rest;
        forall j | 0 <= j < |out|
          ensures out[j].low <= out[j].high
        {
          if j > 0 {
            assert out[j] == rest[j - 1];
          }
        }
      }
    }
  }

  // ---------------------------------------------------------------------------
  // Sorting by time: the data-frame library orders an unsorted index with a
  // stable sort before it bins
  // ---------------------------------------------------------------------------

  /** Put `b` in front of the first bar that is not earlier than it. */
  function InsertByTime(b: Bar, s: seq<Bar>): (r: seq<Bar>)
    ensures multiset(r) == multiset(s) + multiset{b}
    ensures |r| == |s| + 1
    ensures forall x :: x in r <==> x == b || x in s
  {
    if |s| == 0 || b.t <= s[0].t then [b] + s
    else
      assert s == [s[0]] + s[1..];
      [s[0]] + InsertByTime(b, s[1..])
  }

  /** Inserting into a time-ordered series keeps it time-ordered. */
  lemma {:induction false} InsertByTimeOrdered(b: Bar, s: seq<Bar>)
    requires TimeOrdered(s)
    ensures TimeOrdered(InsertByTime(b, s))
    decreases |s|
  {
    if |s| > 0 && b.t > s[0].t {
      TimeOrderedTail(s);
      InsertByTimeOrdered(b, s[1..]);
      var r, rest := InsertByTime(b, s), InsertByTime(b, s[1..]);
      assert r == [s[0]] + rest;
      forall j | 0 <= j < |rest|
        ensures s[0].t <= rest[j].t
      {
        assert rest[j] in rest;
        if rest[j] != b {
          var k :| 0 <= k < |s[1..]| && s[1..][k] == rest[j];
          assert s[1..][k] == s[k + 1];
        }
      }
      forall i, j | 0 <= i <= j < |r|
        ensures r[i].t <= r[j].t
      {
        if i > 0 {
          assert r[i] == rest[i - 1] && r[j] == rest[j - 1];
        } else if j > 0 {
          assert r[j] == rest[j - 1];
        }
      }
    }
  }

  /** A stable sort of the bars by timestamp. */
  function SortByTime(bars: seq<Bar>): (r: seq<Bar>)
    ensures multiset(r) == multiset(bars)
    ensures |r| == |bars|
    ensures TimeOrdered(r)
  {
    if |bars| == 0 then []
    else
      assert bars == [bars[0]] + bars[1..];
      var rest := SortByTime(bars[1..]);
      InsertByTimeOrdered(bars[0], rest);
      InsertByTime(bars[0], rest)
  }

  /** The bars stamped `t`, in series order. */
  function AtTime(bars: seq<Bar>, t: int): seq<Bar> {
    if |bars| == 0 then [] else (if bars[0].t == t then [bars[0]] else []) + AtTime(bars[1..], t)
  }

  lemma {:induction false} InsertByTimeKeepsTies(b: Bar, s: seq<Bar>, t: int)
    ensures AtTime(InsertByTime(b, s), t) == (if b.t == t then [b] else []) + AtTime(s, t)
    decreases |s|
  {
    if |s| > 0 && b.t > s[0].t {
      var r := InsertByTime(b, s);
      InsertByTimeKeepsTies(b, s[1..], t);
      assert r[1..] == InsertByTime(b, s[1..]);
    }
  }

  /** The sort is stable: bars with equal timestamps keep their relative order. */
  lemma {:induction false} SortByTimeIsStable(bars: seq<Bar>, t: int)
    ensures AtTime(SortByTime(bars), t) == AtTime(bars, t)
    decreases |bars|
  {
    if |bars| > 0 {
      SortByTimeIsStable(bars[1..], t);
      InsertByTimeKeepsTies(bars[0], SortByTime(bars[1..]), t);
    }
  }

  /** A series that is already oldest first is left as it is. */
  lemma {:induction false} SortByTimeKeepsOrderedSeries(bars: seq<Bar>)
    requires TimeOrdered(bars)
    ensures SortByTime(bars) == bars
    decreases |bars|
  {
    if |bars| > 0 {
      TimeOrderedTail(bars);
      SortByTimeKeepsOrderedSeries(bars[1..]);
      if |bars| > 1 {
        assert bars[0].t <= bars[1].t;
        assert bars[1..][0] == bars[1];
      }
    }
  }

  // ---------------------------------------------------------------------------
  // Resampling: sort, then bin
  // ---------------------------------------------------------------------------

  /** `df.resample(rule).agg({...}).dropna()` on clean data: the bars are sorted by
      time, then binned. */
  function Resample(bars: seq<Bar>, origin: int, width: Width): (out: seq<Bar>)
    ensures |out| <= |bars|
    ensures |out| == 0 <==> |bars| == 0
    ensures OnGrid(out, origin, width)
    ensures StrictlyAscending(out)
  {
    var sorted := SortByTime(bars);
    AggregateAscending(sorted, origin, width);
    Aggregate(sorted, origin, width)
  }

  /** Order-free meaning of one row: over the bars of its bucket, wherever they
      sit in the series, it has the open of an earliest bar, the highest high,
      the lowest low and the close of a latest bar. */
  ghost predicate SummarisesBucketOf(row: Bar, bars: seq<Bar>, origin: int, width: Width) {
    && (forall b :: b in bars && BucketStart(b.t, origin, width) == row.t ==>
          b.high <= row.high && row.low <= b.low)
    && (exists b :: b in bars && BucketStart(b.t, origin, width) == row.t && b.high == row.high)
    && (exists b :: b in bars && BucketStart(b.t, origin, width) == row.t && b.low == row.low)
    && (exists b :: b in bars && BucketStart(b.t, origin, width) == row.t && b.open == row.open &&
          forall c :: c in bars && BucketStart(c.t, origin, width) == row.t ==> b.t <= c.t)
    && (exists b :: b in bars && BucketStart(b.t, origin, width) == row.t && b.close == row.close &&
          forall c :: c in bars && BucketStart(c.t, origin, width) == row.t ==> c.t <= b.t)
  }

  /** What resampling a series in any order means, stated over membership
      only: ascending rows, one per occupied bucket and none for an empty one,
      each summarising its bucket. The row-for-row counterpart over a given
      order is `IsResamplingInOrder`. */
  ghost predicate IsResamplingOf(out: seq<Bar>, bars: seq<Bar>, origin: int, width: Width) {
    && StrictlyAscending(out)
    && RowsHaveBars(out, bars, origin, width)
    && RowsCover(out, bars, origin, width)
    && forall j :: 0 <= j < |out| ==> SummarisesBucketOf(out[j], bars, origin, width)
  }

  /** The bars of one bucket of a time-ordered series are time-ordered. */
  lemma {:induction false} InBucketOrdered(bars: seq<Bar>, start: int, origin: int, width: Width)
    requires TimeOrdered(bars)
    ensures TimeOrdered(InBucket(bars, start, origin, width))
    decreases |bars|
  {
    if |bars| > 0 {
      var tail := bars[1..];
      TimeOrderedTail(bars);
      InBucketOrdered(tail, start, origin, width);
      InBucketMembers(tail, start, origin, width);
      var g, h := InBucket(bars, start, origin, width), InBucket(tail, start, origin, width);
      if BucketStart(bars[0].t, origin, width) == start {
        assert g == [bars[0]] + h;
        forall j | 0 <= j < |h|
          ensures bars[0].t <= h[j].t
        {
          assert h[j] in h;
          var k :| 0 <= k < |tail| && tail[k] == h[j];
          assert tail[k] == bars[k + 1];
        }
      }
    }
  }

  /** One row of the sorted aggregation summarises its bucket of the original
      series. */
  lemma RowSummarisesBucketOf(row: Bar, sorted: seq<Bar>, bars: seq<Bar>, origin: int, width: Width)
    requires multiset(sorted) == multiset(bars) && TimeOrdered(sorted)
    requires RowSummarises(row, sorted, origin, width)
    ensures SummarisesBucketOf(row, bars, origin, width)
  {
    var g := InBucket(sorted, row.t, origin, width);
    InBucketMembers(sorted, row.t, origin, width);
    InBucketOrdered(sorted, row.t, origin, width);
    assert forall b :: b in bars <==> b in sorted by {
      forall b ensures b in bars <==> b in sorted {
        assert b in bars <==> b in multiset(bars);
        assert b in sorted <==> b in multiset(sorted);
      }
    }
    assert forall b :: b in sorted && BucketStart(b.t, origin, width) == row.t ==> b in g by {
      forall b | b in sorted && BucketStart(b.t, origin, width) == row.t
        ensures b in g
      {
        var i :| 0 <= i < |sorted| && sorted[i] == b;
      }
    }
    var first, last := g[0], g[|g| - 1];
    assert first in g && last in g;
    forall c | c in bars && BucketStart(c.t, origin, width) == row.t
      ensures first.t <= c.t <= last.t
      ensures c.high <= row.high && row.low <= c.low
    {
      assert c in g;
      var i :| 0 <= i < |g| && g[i] == c;
    }
    var hi :| 0 <= hi < |g| && g[hi].high == MaxHigh(g);
    var lo :| 0 <= lo < |g| && g[lo].low == MinLow(g);
    assert g[hi] in g && g[lo] in g;
  }

  /** A permutation has the same members. */
  lemma SameMembers(sorted: seq<Bar>, bars: seq<Bar>)
    requires multiset(sorted) == multiset(bars)
    ensures forall b :: b in bars <==> b in sorted
  {
    forall b
      ensures b in bars <==> b in sorted
    {
      assert b in bars <==> b in multiset(bars);
      assert b in sorted <==> b in multiset(sorted);
    }
  }

  /** An occupied bucket of a permutation is an occupied bucket of the original. */
  lemma BucketHasBarOfPermutation(sorted: seq<Bar>, bars: seq<Bar>, start: int, origin: int, width: Width)
    requires multiset(sorted) == multiset(bars)
    requires BucketHasBar(sorted, start, origin, width)
    ensures BucketHasBar(bars, start, origin, width)
  {
    var i :| 0 <= i < |sorted| && BucketStart(sorted[i].t, origin, width) == start;
    SameMembers(sorted, bars);
    assert sorted[i] in bars;
    var k :| 0 <= k < |bars| && bars[k] == sorted[i];
  }

  /** Every row of the resampled series belongs to an occupied bucket of the
      original series and summarises it. */
  lemma ResampleRowsSummarise(bars: seq<Bar>, origin: int, width: Width)
    ensures var out := Resample(bars, origin, width);
      && RowsHaveBars(out, bars, origin, width)
      && forall j :: 0 <= j < |out| ==> SummarisesBucketOf(out[j], bars, origin, width)
  {
    var sorted := SortByTime(bars);
    var out := Aggregate(sorted, origin, width);
    assert Resample(bars, origin, width) == out;
    AggregateSummarises(sorted, origin, width);
    AggregateRowsHaveBars(sorted, origin, width);
    forall j | 0 <= j < |out|
      ensures SummarisesBucketOf(out[j], bars, origin, width)
      ensures BucketHasBar(bars, out[j].t, origin, width)
    {
      RowSummarisesBucketOf(out[j], sorted, bars, origin, width);
      BucketHasBarOfPermutation(sorted, bars, out[j].t, origin, width);
    }
  }

  /** Every occupied bucket of the original series has a row. */
  lemma ResampleCovers(bars: seq<Bar>, origin: int, width: Width)
    ensures RowsCover(Resample(bars, origin, width), bars, origin, width)
  {
    var sorted := SortByTime(bars);
    var out := Aggregate(sorted, origin, width);
    assert Resample(bars, origin, width) == out;
    AggregateCovers(sorted, origin, width);
    SameMembers(sorted, bars);
    forall i | 0 <= i < |bars|
      ensures exists j :: 0 <= j < |out| && out[j].t == BucketStart(bars[i].t, origin, width)
    {
      assert bars[i] in sorted;
      var k :| 0 <= k < |sorted| && sorted[k] == bars[i];
    }
  }

  /** Resampling a series in any order is a resampling in the order-free sense,
      and row for row it is the aggregation of the stably sorted series. */
  lemma ResampleIsResampling(bars: seq<Bar>, origin: int, width: Width)
    ensures IsResamplingInOrder(Resample(bars, origin, width), SortByTime(bars), origin, width)
    ensures IsResamplingOf(Resample(bars, origin, width), bars, origin, width)
  {
    AggregateIsResampling(SortByTime(bars), origin, width);
    ResampleRowsSummarise(bars, origin, width);
    ResampleCovers(bars, origin, width);
  }

  /** Sorting matters: three bars arriving in buckets A, B, A (the two A bars in
      time order, the B bar the latest) resample to two rows, where binning them
      in arrival order would give three, splitting bucket A. Bucket A is the one
      starting at `origin`; as `origin` is arbitrary, so is A. */
  lemma ResampleMergesSplitBucket(b0: Bar, b1: Bar, b2: Bar, origin: int, width: Width)
    requires origin <= b0.t <= b2.t < origin + width <= b1.t
    ensures |Resample([b0, b1, b2], origin, width)| == 2
    ensures |Aggregate([b0, b1, b2], origin, width)| == 3
  {
    SortedSplitBucketRows(b0, b1, b2, origin, width);
    ArrivalSplitBucketRows(b0, b1, b2, origin, width);
  }

  /** In time order b0, b2, b1 the two bucket-A bars share a row. */
  lemma SortedSplitBucketRows(b0: Bar, b1: Bar, b2: Bar, origin: int, width: Width)
    requires origin <= b0.t <= b2.t < origin + width <= b1.t
    ensures |Resample([b0, b1, b2], origin, width)| == 2
  {
    OriginBucket(b0.t, origin, width);
    OriginBucket(b2.t, origin, width);
    SplitBucketSorted(b0, b1, b2);
    var s1 := BucketStart(b1.t, origin, width);
    assert origin < s1;
    AggregateStep([b1], origin, width);
    assert |Aggregate([b1], origin, width)| == 1 && Aggregate([b1], origin, width)[0].t == s1;
    AggregateStep([b2, b1], origin, width);
    assert [b2, b1][1..] == [b1];
    assert |Aggregate([b2, b1], origin, width)| == 2 && Aggregate([b2, b1], origin, width)[0].t == origin;
    AggregateStep([b0, b2, b1], origin, width);
    assert [b0, b2, b1][1..] == [b2, b1];
  }

  /** In arrival order b0, b1, b2 the bucket-B bar separates the two bucket-A bars. */
  lemma ArrivalSplitBucketRows(b0: Bar, b1: Bar, b2: Bar, origin: int, width: Width)
    requires origin <= b0.t <= b2.t < origin + width <= b1.t
    ensures |Aggregate([b0, b1, b2], origin, width)| == 3
  {
    OriginBucket(b0.t, origin, width);
    OriginBucket(b2.t, origin, width);
    var s1 := BucketStart(b1.t, origin, width);
    assert origin < s1;
    AggregateStep([b2], origin, width);
    assert |Aggregate([b2], origin, width)| == 1 && Aggregate([b2], origin, width)[0].t == origin;
    AggregateStep([b1, b2], origin, width);
    assert [b1, b2][1..] == [b2];
    assert |Aggregate([b1, b2], origin, width)| == 2 && Aggregate([b1, b2], origin, width)[0].t == s1;
    AggregateStep([b0, b1, b2], origin, width);
    assert [b0, b1, b2][1..] == [b1, b2];
  }

  lemma OriginBucket(t: int, origin: int, width: Width)
    requires origin <= t < origin + width
    ensures BucketStart(t, origin, width) == origin
  {
    var k := (t - origin) / width;
    if k >= 1 {
      MulAtLeast(k, width);
    } else if k <= -1 {
      MulNonPositiveInt(k + 1, width);
    }
  }

  lemma SortSingleton(b: Bar)
    ensures SortByTime([b]) == [b]
  {
    assert [b][1..] == [];
  }

  lemma InsertBehindEarlier(b: Bar, a: Bar)
    requires a.t < b.t
    ensures InsertByTime(b, [a]) == [a, b]
  {
    assert [a][1..] == [];
  }

  lemma SplitBucketSorted(b0: Bar, b1: Bar, b2: Bar)
    requires b0.t <= b2.t < b1.t
    ensures SortByTime([b0, b1, b2]) == [b0, b2, b1]
  {
    assert [b0, b1, b2][1..] == [b1, b2] && [b1, b2][1..] == [b2];
    SortSingleton(b2);
    InsertBehindEarlier(b1, b2);
    assert SortByTime([b1, b2]) == [b2, b1];
    assert InsertByTime(b0, [b2, b1]) == [b0, b2, b1];
  }

  /** One step of `Aggregate`, for use on short explicit series. */
  lemma AggregateStep(bars: seq<Bar>, origin: int, width: Width)
    requires |bars| > 0
    ensures Aggregate(bars, origin, width) ==
      var rest := Aggregate(bars[1..], origin, width);
      var start := BucketStart(bars[0].t, origin, width);
      if |rest| > 0 && rest[0].t == start then [Absorb(bars[0], rest[0])] + rest[1..]
      else [bars[0].(t := start)] + rest
  {
  }

  /** A series that is already oldest first (the provider's order) is binned as it
      is. */
  lemma ResampleOfOrderedSeries(bars: seq<Bar>, origin: int, width: Width)
    requires TimeOrdered(bars)
    ensures Resample(bars, origin, width) == Aggregate(bars, origin, width)
  {
    SortByTimeKeepsOrderedSeries(bars);
  }

  /** Resampling a resampled series at the same width returns it unchanged. */
  lemma ResampleIdempotent(bars: seq<Bar>, origin: int, width: Width)
    ensures Resample(Resample(bars, origin, width), origin, width) == Resample(bars, origin, width)
  {
    var out := Resample(bars, origin, width);
    SortByTimeKeepsOrderedSeries(out);
    AggregateIdempotent(SortByTime(bars), origin, width);
  }

  /** Well-formed bars (low <= high), in any order, resample to well-formed rows. */
  lemma ResampleKeepsLowBelowHigh(bars: seq<Bar>, origin: int, width: Width)
    requires LowBelowHigh(bars)
    ensures LowBelowHigh(Resample(bars, origin, width))
  {
    var sorted := SortByTime(bars);
    assert Resample(bars, origin, width) == Aggregate(sorted, origin, width);
    SameMembers(sorted, bars);
    forall i | 0 <= i < |sorted|
      ensures sorted[i].low <= sorted[i].high
    {
      assert sorted[i] in bars;
      var k :| 0 <= k < |bars| && bars[k] == sorted[i];
    }
    AggregateKeepsLowBelowHigh(sorted, origin, width);
  }

  // ---------------------------------------------------------------------------
  // resample_data
  // ---------------------------------------------------------------------------

  /** Fewer rows than this draws a warning from `resample_data` (and is refused
      by the dashboard's gate). */
  const MIN_PERIODS: nat := 25

  /** A resampled frame, and whether `resample_data` printed its
      "may not be sufficient" warning. */
  datatype Resampled = Resampled(bars: seq<Bar>, sparse: bool)

  /** `resample_data`: an empty frame stays empty, an unknown timeframe returns
      the input as it is, and a known one aggregates; the period count only
      raises the warning. */
  function ResampleData(bars: seq<Bar>, timeframe: string, origin: int): (r: Resampled)
    ensures |bars| == 0 ==> r.bars == []
    ensures ParseTimeframe(timeframe).None? ==> r.bars == bars
    ensures |bars| > 0 && ParseTimeframe(timeframe).Some? ==>
              r.bars == Resample(bars, origin, WidthOf(ParseTimeframe(timeframe).value))
    ensures r.sparse <==> |bars| > 0 && ParseTimeframe(timeframe).Some? && |r.bars| < MIN_PERIODS
    ensures |r.bars| <= |bars|
  {
    if |bars| == 0 then Resampled([], false)
    else
      match ParseTimeframe(timeframe)
      case None => Resampled(bars, false)
      case Some(tf) =>
        var out := Resample(bars, origin, WidthOf(tf));
        Resampled(out, |out| < MIN_PERIODS)
  }
}

=== FILE: trend_analyzer.dfy ===
/** The EMA 12/21 crossover trend classifier of `TrendAnalyzer`.

    Closing prices are exact reals. `Classify` holds the decision logic over two
    arbitrary, equally long series `s` (short EMA) and `l` (long EMA), so that the
    facts about labels, strength and the backward scan hold whatever the series
    are; `Analyze` feeds it the two EMAs of a close series. */
module TrendAnalyzer {
  import opened Base

  const SHORT_SPAN: nat := 12
  const LONG_SPAN: nat := 21
  /** How many adjacent pairs, counted back from the latest period, the scan inspects. */
  const LOOKBACK: nat := 5
  /** A crossover at most this many periods ago adds the extra 0.2 to the strength. */
  const VERY_RECENT: nat := 2

  const BASE_STRENGTH: real := 0.6
  const CROSS_STRENGTH: real := 0.8
  const RECENCY_BONUS: real := 0.2
  const MAX_STRENGTH: real := 1.0

  // ---------------------------------------------------------------------------
  // Exponential moving average, `ewm(span=period, adjust=False).mean()`
  // ---------------------------------------------------------------------------

  /** The smoothing factor of a span: alpha * (span + 1) == 2. */
  function Alpha(span: nat): (a: real)
    requires span >= 1
    ensures 0.0 < a <= 1.0
    ensures a * (span as real + 1.0) == 2.0
  {
    2.0 / (span as real + 1.0)
  }

  /** `e` is the adjust=False EMA of `p`: it starts at the first price, and every
      later value moves the previous one a fraction `alpha` towards the new price. */
  ghost predicate IsEma(p: seq<real>, alpha: real, e: seq<real>) {
    && |e| == |p|
    && (|p| > 0 ==> e[0] == p[0])
    && forall i :: 0 < i < |p| ==> e[i] == Step(alpha, p[i], e[i - 1])
  }

  /** One EMA update: the new value is alpha * price + (1 - alpha) * previous. */
  function Step(alpha: real, price: real, prev: real): real {
    alpha * price + (1.0 - alpha) * prev
  }

  function Ema(p: seq<real>, alpha: real): (e: seq<real>)
    ensures IsEma(p, alpha, e)
    decreases |p|
  {
    if |p| <= 1 then p
    else
      var q := p[..|p| - 1];
      var prev := Ema(q, alpha);
      var e := prev + [Step(alpha, p[|p| - 1], prev[|prev| - 1])];
      assert forall i :: 0 <= i < |q| ==> e[i] == prev[i] && p[i] == q[i];
      e
  }

  function ShortEma(closes: seq<real>): seq<real> {
    Ema(closes, Alpha(SHORT_SPAN))
  }

  function LongEma(closes: seq<real>): seq<real> {
    Ema(closes, Alpha(LONG_SPAN))
  }

  /** The recurrence determines the EMA: any series satisfying it is `Ema`. */
  lemma {:induction false} EmaUnique(p: seq<real>, alpha: real, e: seq<real>)
    requires IsEma(p, alpha, e)
    ensures e == Ema(p, alpha)
  {
    var f := Ema(p, alpha);
    forall i | 0 <= i < |p|
      ensures e[i] == f[i]
    {
      EmaAgreeUpTo(p, alpha, e, f, i);
    }
  }

  lemma {:induction false} EmaAgreeUpTo(p: seq<real>, alpha: real, e: seq<real>, f: seq<real>, i: nat)
    requires IsEma(p, alpha, e) && IsEma(p, alpha, f)
    requires i < |p|
    ensures e[i] == f[i]
    decreases i
  {
    if i > 0 {
      EmaAgreeUpTo(p, alpha, e, f, i - 1);
    }
  }

  /** With 0 < alpha <= 1 every EMA value is a convex combination of prices seen so
      far, so it stays inside any band [lo, hi] that holds all of them. */
  lemma {:induction false} EmaBounded(p: seq<real>, alpha: real, lo: real, hi: real)
    requires 0.0 < alpha <= 1.0
    requires forall j :: 0 <= j < |p| ==> lo <= p[j] <= hi
    ensures forall i :: 0 <= i < |p| ==> lo <= Ema(p, alpha)[i] <= hi
  {
    var e := Ema(p, alpha);
    forall i | 0 <= i < |p|
      ensures lo <= e[i] <= hi
    {
      EmaBoundedAt(p, alpha, lo, hi, e, i);
    }
  }

  lemma {:induction false} EmaBoundedAt(p: seq<real>, alpha: real, lo: real, hi: real, e: seq<real>, i: nat)
    requires 0.0 < alpha <= 1.0
    requires forall j :: 0 <= j < |p| ==> lo <= p[j] <= hi
    requires IsEma(p, alpha, e)
    requires i < |p|
    ensures lo <= e[i] <= hi
    decreases i
  {
    if i > 0 {
      EmaBoundedAt(p, alpha, lo, hi, e, i - 1);
      ConvexStep(alpha, p[i], e[i - 1], lo, hi);
    }
  }

  lemma ConvexStep(alpha: real, x: real, y: real, lo: real, hi: real)
    requires 0.0 < alpha <= 1.0
    requires lo <= x <= hi && lo <= y <= hi
    ensures lo <= Step(alpha, x, y) <= hi
  {
    var beta := 1.0 - alpha;
    assert Step(alpha, x, y) - hi == alpha * (x - hi) + beta * (y - hi);
    MulNonPositive(alpha, x - hi);
    MulNonPositive(beta, y - hi);
    assert Step(alpha, x, y) - lo == alpha * (x - lo) + beta * (y - lo);
    MulNonNegative(alpha, x - lo);
    MulNonNegative(beta, y - lo);
  }

  lemma MulNonNegative(c: real, u: real)
    requires c >= 0.0 && u >= 0.0
    ensures c * u >= 0.0
  {
  }

  lemma MulNonPositive(c: real, u: real)
    requires c >= 0.0 && u <= 0.0
    ensures c * u <= 0.0
  {
  }

  // ---------------------------------------------------------------------------
  // Crossovers between a short series s and a long series l
  // ---------------------------------------------------------------------------

  datatype CrossKind = BullishCross | BearishCross

  /** The pair (k-1, k) moves s from at-or-below l to strictly above it. */
  predicate BullishCrossAt(s: seq<real>, l: seq<real>, k: int)
    requires |s| == |l| && 1 <= k < |s|
  {
    s[k - 1] <= l[k - 1] && s[k] > l[k]
  }

  /** The pair (k-1, k) moves s from at-or-above l to strictly below it. */
  predicate BearishCrossAt(s: seq<real>, l: seq<real>, k: int)
    requires |s| == |l| && 1 <= k < |s|
  {
    s[k - 1] >= l[k - 1] && s[k] < l[k]
  }

  /** The `if … elif …` test both the analyzer and the chart apply to one pair.
      The bullish test is tried first, yet it never hides a bearish cross. */
  function KindAt(s: seq<real>, l: seq<real>, k: int): (r: Option<CrossKind>)
    requires |s| == |l| && 1 <= k < |s|
    ensures r == Some(BullishCross) <==> BullishCrossAt(s, l, k)
    ensures r == Some(BearishCross) <==> BearishCrossAt(s, l, k)
    ensures r.None? <==> !BullishCrossAt(s, l, k) && !BearishCrossAt(s, l, k)
  {
    if BullishCrossAt(s, l, k) then Some(BullishCross)
    else if BearishCrossAt(s, l, k) then Some(BearishCross)
    else None
  }

  /** A crossover found by the backward scan: its direction and how many periods
      before the end it happened (the pair (n-i-1, n-i) is i periods ago). */
  datatype RecentCross = RecentCross(kind: CrossKind, periodsAgo: nat)

  /** The loop `for i in range(1, min(6, n))` from iteration `i` on: the first
      pair that crosses stops the scan. */
  function ScanBack(s: seq<real>, l: seq<real>, i: nat): (r: Option<RecentCross>)
    requires |s| == |l| && i >= 1
    ensures r.Some? ==> i <= r.value.periodsAgo < Min(LOOKBACK + 1, |s|)
    ensures r.Some? ==> KindAt(s, l, |s| - r.value.periodsAgo) == Some(r.value.kind)
    ensures r.Some? ==> forall k :: |s| - r.value.periodsAgo < k <= |s| - i ==> KindAt(s, l, k).None?
    ensures r.None? <==> forall k :: |s| - Min(LOOKBACK + 1, |s|) < k <= |s| - i ==> KindAt(s, l, k).None?
    decreases LOOKBACK + 1 - i
  {
    if i >= Min(LOOKBACK + 1, |s|) then None
    else
      match KindAt(s, l, |s| - i)
      case Some(kind) => Some(RecentCross(kind, i))
      case None => ScanBack(s, l, i + 1)
  }

  /** The crossover the analyzer reports: the nearest one among the last
      min(5, n-1) adjacent pairs, or none. */
  function RecentCrossover(s: seq<real>, l: seq<real>): (r: Option<RecentCross>)
    requires |s| == |l|
    ensures |s| < 2 ==> r.None?
    ensures r.Some? ==> 1 <= r.value.periodsAgo <= Min(LOOKBACK, |s| - 1)
    ensures r.Some? ==> KindAt(s, l, |s| - r.value.periodsAgo) == Some(r.value.kind)
    ensures r.Some? ==> forall k :: |s| - r.value.periodsAgo < k < |s| ==> KindAt(s, l, k).None?
    ensures r.None? <==> forall k :: 1 <= k < |s| && |s| - LOOKBACK <= k ==> KindAt(s, l, k).None?
  {
    if |s| >= 2 then ScanBack(s, l, 1) else None
  }

  // ---------------------------------------------------------------------------
  // The analysis result
  // ---------------------------------------------------------------------------

  /** NEUTRAL belongs to the dashboard's vocabulary but the classifier never
      produces it. */
  datatype Trend = BULLISH | BEARISH | NEUTRAL

  datatype TrendResult = TrendResult(
    trend: Trend,
    strength: real,
    ema12Value: real,
    ema21Value: real,
    ema12Above21: bool,
    recentBullishCross: bool,
    recentBearishCross: bool,
    crossoverPeriodsAgo: Option<nat>,
    priceAboveEma12: bool,
    priceAboveEma21: bool)

  /** The classification of a close series whose short and long EMAs are `s`, `l`. */
  function Classify(closes: seq<real>, s: seq<real>, l: seq<real>): (r: TrendResult)
    requires |closes| == |s| == |l| > 0
    ensures r.trend != NEUTRAL
    ensures r.trend == BULLISH <==> s[|s| - 1] > l[|l| - 1]
    ensures r.trend == BEARISH <==> s[|s| - 1] <= l[|l| - 1]
    ensures r.ema12Above21 <==> r.trend == BULLISH
    ensures r.strength == BASE_STRENGTH || r.strength == CROSS_STRENGTH || r.strength == MAX_STRENGTH
    ensures !(r.recentBullishCross && r.recentBearishCross)
    ensures r.crossoverPeriodsAgo.None? <==> !r.recentBullishCross && !r.recentBearishCross
    ensures r.crossoverPeriodsAgo.Some? ==> 1 <= r.crossoverPeriodsAgo.value <= Min(LOOKBACK, |s| - 1)
    ensures r.recentBullishCross ==> BullishCrossAt(s, l, |s| - r.crossoverPeriodsAgo.value)
    ensures r.recentBearishCross ==> BearishCrossAt(s, l, |s| - r.crossoverPeriodsAgo.value)
    ensures r.crossoverPeriodsAgo.Some? ==>
              forall k :: |s| - r.crossoverPeriodsAgo.value < k < |s| ==> KindAt(s, l, k).None?
    ensures r.crossoverPeriodsAgo.None? ==>
              forall k :: 1 <= k < |s| && |s| - LOOKBACK <= k ==> KindAt(s, l, k).None?
    ensures r.crossoverPeriodsAgo.None? ==> r.strength == BASE_STRENGTH
    ensures r.strength == MAX_STRENGTH ==>
              r.crossoverPeriodsAgo.Some? && r.crossoverPeriodsAgo.value <= VERY_RECENT
    ensures r.ema12Value == s[|s| - 1] && r.ema21Value == l[|l| - 1]
    ensures r.priceAboveEma12 <==> closes[|closes| - 1] > s[|s| - 1]
    ensures r.priceAboveEma21 <==> closes[|closes| - 1] > l[|l| - 1]
  {
    var last := |s| - 1;
    var currentBullish := s[last] > l[last];
    var cross := RecentCrossover(s, l);
    var recentBull := cross.Some? && cross.value.kind == BullishCross;
    var recentBear := cross.Some? && cross.value.kind == BearishCross;
    var periodsAgo: Option<nat> := if cross.Some? then Some(cross.value.periodsAgo) else None;
    var trend := if currentBullish then BULLISH else BEARISH;
    var base :=
      if currentBullish then (if recentBull then CROSS_STRENGTH else BASE_STRENGTH)
      else (if recentBear then CROSS_STRENGTH else BASE_STRENGTH);
    // `if crossover_periods_ago and …`: None and 0 are both falsy in Python
    var strength :=
      if periodsAgo.Some? && periodsAgo.value != 0 && periodsAgo.value <= VERY_RECENT
      then MinReal(MAX_STRENGTH, base + RECENCY_BONUS)
      else base;
    TrendResult(
      trend, strength, s[last], l[last], currentBullish, recentBull, recentBear, periodsAgo,
      closes[last] > s[last], closes[last] > l[last])
  }

  /** What every analysis satisfies: one of the two labels that match the final
      positioning, and one of the three strengths. */
  predicate ValidAnalysis(a: TrendResult) {
    && a.trend != NEUTRAL
    && (a.trend == BULLISH <==> a.ema12Value > a.ema21Value)
    && (a.ema12Above21 <==> a.trend == BULLISH)
    && (a.strength == BASE_STRENGTH || a.strength == CROSS_STRENGTH || a.strength == MAX_STRENGTH)
  }

  /** `analyze_ema_crossover` (and `get_overall_trend`, which only delegates to it).
      An empty series has no last value: the source raises there, modelled as None. */
  function Analyze(closes: seq<real>): (r: Option<TrendResult>)
    ensures r.Some? <==> |closes| > 0
    ensures r.Some? ==> ValidAnalysis(r.value)
    ensures r.Some? ==> r.value.ema12Value == ShortEma(closes)[|closes| - 1]
    ensures r.Some? ==> r.value.ema21Value == LongEma(closes)[|closes| - 1]
    ensures r.Some? ==> (r.value.trend == BULLISH <==> r.value.ema12Value > r.value.ema21Value)
  {
    if |closes| == 0 then None
    else Some(Classify(closes, ShortEma(closes), LongEma(closes)))
  }

  // ---------------------------------------------------------------------------
  // Properties of the classification
  // ---------------------------------------------------------------------------

  /** The flags and the periods-ago of a classification are the scan's report. */
  lemma ClassifyReportsScan(closes: seq<real>, s: seq<real>, l: seq<real>)
    requires |closes| == |s| == |l| > 0
    ensures var r, rc := Classify(closes, s, l), RecentCrossover(s, l);
      && (r.crossoverPeriodsAgo.None? <==> rc.None?)
      && (rc.Some? ==>
            && r.crossoverPeriodsAgo == Some(rc.value.periodsAgo)
            && (r.recentBullishCross <==> rc.value.kind == BullishCross)
            && (r.recentBearishCross <==> rc.value.kind == BearishCross))
  {
  }

  /** After a crossover, as long as no further pair crosses, the sign of s - l
      can only move towards zero on the crossover's side: a bullish cross keeps
      s >= l, a bearish one keeps s <= l. */
  lemma {:induction false} CrossSidePersists(s: seq<real>, l: seq<real>, c: int, k: int)
    requires |s| == |l| && 1 <= c <= k < |s|
    requires KindAt(s, l, c).Some?
    requires forall j :: c < j <= k ==> KindAt(s, l, j).None?
    ensures KindAt(s, l, c) == Some(BullishCross) ==> s[k] >= l[k]
    ensures KindAt(s, l, c) == Some(BearishCross) ==> s[k] <= l[k]
    decreases k - c
  {
    if k > c {
      CrossSidePersists(s, l, c, k - 1);
      assert KindAt(s, l, k).None?;
    }
  }

  /** The reported crossover points the same way as the final positioning,
      except in one case: after a bullish cross the two EMAs end exactly equal,
      the label is BEARISH and the bullish flag is still set. */
  lemma ReportedCrossMatchesTrendUnlessTied(closes: seq<real>, s: seq<real>, l: seq<real>)
    requires |closes| == |s| == |l| > 0
    ensures var r := Classify(closes, s, l);
      && (r.recentBearishCross ==> r.trend == BEARISH)
      && (r.recentBullishCross && r.trend != BULLISH ==> s[|s| - 1] == l[|l| - 1])
  {
    var r := Classify(closes, s, l);
    var n := |s|;
    if r.crossoverPeriodsAgo.Some? {
      var c := n - r.crossoverPeriodsAgo.value;
      CrossSidePersists(s, l, c, n - 1);
    }
  }

  /** Away from the tie above, the strength depends on the recency of the
      reported crossover alone: 1.0 within two periods, 0.8 within five, and 0.6
      when the scan found none. */
  lemma StrengthFromRecency(closes: seq<real>, s: seq<real>, l: seq<real>)
    requires |closes| == |s| == |l| > 0
    requires s[|s| - 1] != l[|l| - 1]
    ensures var r := Classify(closes, s, l);
      && (r.strength == MAX_STRENGTH <==>
            r.crossoverPeriodsAgo.Some? && r.crossoverPeriodsAgo.value <= VERY_RECENT)
      && (r.strength == CROSS_STRENGTH <==>
            r.crossoverPeriodsAgo.Some? && r.crossoverPeriodsAgo.value > VERY_RECENT)
      && (r.strength == BASE_STRENGTH <==> r.crossoverPeriodsAgo.None?)
      && (r.crossoverPeriodsAgo.Some? ==>
            (r.recentBullishCross <==> r.trend == BULLISH))
  {
    ReportedCrossMatchesTrendUnlessTied(closes, s, l);
  }

  /** A concrete series on which the tie happens: the crossover bonus lifts a
      BEARISH label to 0.8 although the crossover it comes from is bullish. */
  lemma TieAfterBullishCross()
    ensures var r := Analyze([1.0, 2.0, 35.0 / 143.0]).value;
      && r.trend == BEARISH
      && r.recentBullishCross
      && r.crossoverPeriodsAgo == Some(2)
      && r.strength == CROSS_STRENGTH
  {
    var p := [1.0, 2.0, 35.0 / 143.0];
    assert Alpha(SHORT_SPAN) == 2.0 / 13.0;
    assert Alpha(LONG_SPAN) == 2.0 / 22.0;
    var s := ShortEma(p);
    var l := LongEma(p);
    assert s[0] == 1.0 && l[0] == 1.0;
    assert s[1] == 15.0 / 13.0;
    assert l[1] == 12.0 / 11.0;
    assert s[2] == l[2];
    assert BullishCrossAt(s, l, 1);
    assert KindAt(s, l, 2).None?;
  }

  // ---------------------------------------------------------------------------
  // Non-decreasing price series
  // ---------------------------------------------------------------------------

  ghost predicate NonDecreasing(p: seq<real>) {
    forall i, j :: 0 <= i <= j < |p| ==> p[i] <= p[j]
  }

  /** On a non-decreasing series the short EMA never falls below the long one,
      and is strictly above it exactly once the price has left its first value. */
  lemma {:induction false} RisingGapAt(p: seq<real>, i: nat)
    requires NonDecreasing(p) && i < |p|
    ensures var s, l := ShortEma(p), LongEma(p);
      && l[i] <= p[i]
      && s[i] >= l[i]
      && (s[i] > l[i] <==> p[i] > p[0])
      && (p[i] == p[0] ==> s[i] == p[0] && l[i] == p[0])
    decreases i
  {
    var s, l := ShortEma(p), LongEma(p);
    var a, b := Alpha(SHORT_SPAN), Alpha(LONG_SPAN);
    assert a == 2.0 / 13.0 && b == 2.0 / 22.0;
    if i > 0 {
      RisingGapAt(p, i - 1);
      assert p[0] <= p[i - 1] <= p[i];
      assert s[i] == Step(a, p[i], s[i - 1]) == (2.0 / 13.0) * p[i] + (11.0 / 13.0) * s[i - 1];
      assert l[i] == Step(b, p[i], l[i - 1]) == (1.0 / 11.0) * p[i] + (10.0 / 11.0) * l[i - 1];
    }
  }

  /** Which pairs of a non-decreasing series cross: only the one where the price
      first rises above its starting value, and that crossing is bullish. */
  lemma RisingCrossAt(p: seq<real>, k: int)
    requires NonDecreasing(p) && 1 <= k < |p|
    ensures KindAt(ShortEma(p), LongEma(p), k) ==
              if p[k - 1] == p[0] && p[k] > p[0] then Some(BullishCross) else None
  {
    RisingGapAt(p, k - 1);
    RisingGapAt(p, k);
    assert p[0] <= p[k - 1] <= p[k];
  }

  /** A series that stays at its first value is labelled BEARISH with the base
      strength: equal EMAs are not bullish positioning. */
  lemma FlatSeriesIsBearish(p: seq<real>)
    requires |p| > 0
    requires forall i :: 0 <= i < |p| ==> p[i] == p[0]
    ensures var r := Analyze(p).value;
      r.trend == BEARISH && r.crossoverPeriodsAgo.None? && r.strength == BASE_STRENGTH
  {
    assert NonDecreasing(p);
    RisingGapAt(p, |p| - 1);
    var s, l := ShortEma(p), LongEma(p);
    forall k | 1 <= k < |p|
      ensures KindAt(s, l, k).None?
    {
      RisingCrossAt(p, k);
    }
  }

  /** A non-decreasing series that first rises above its starting value at
      index m: BULLISH, with a bullish crossover reported m periods from the end
      when that lies inside the lookback, and the base strength otherwise. This
      covers a steadily rising series (m = 1) and a flat run followed by a jump. */
  lemma StepUpSeries(p: seq<real>, m: nat)
    requires NonDecreasing(p)
    requires 1 <= m < |p| && p[m - 1] == p[0] && p[m] > p[0]
    ensures var r := Analyze(p).value;
      && r.trend == BULLISH
      && !r.recentBearishCross
      && (|p| - m <= LOOKBACK ==>
            && r.recentBullishCross
            && r.crossoverPeriodsAgo == Some(|p| - m)
            && r.strength == (if |p| - m <= VERY_RECENT then MAX_STRENGTH else CROSS_STRENGTH))
      && (|p| - m > LOOKBACK ==> r.crossoverPeriodsAgo.None? && r.strength == BASE_STRENGTH)
    ensures forall k :: 1 <= k < |p| ==>
              KindAt(ShortEma(p), LongEma(p), k) == if k == m then Some(BullishCross) else None
  {
    var n := |p|;
    var s, l := ShortEma(p), LongEma(p);
    RisingGapAt(p, n - 1);
    assert p[m] <= p[n - 1];
    forall k | 1 <= k < n
      ensures KindAt(s, l, k) == if k == m then Some(BullishCross) else None
    {
      RisingCrossAt(p, k);
      if k < m {
        assert p[k] <= p[m - 1];
      } else if k > m {
        assert p[m] <= p[k - 1];
      }
    }
    var cross := RecentCrossover(s, l);
    if n - m <= LOOKBACK {
      assert KindAt(s, l, m).Some?;
      assert cross.Some?;
      assert KindAt(s, l, n - cross.value.periodsAgo).Some?;
    } else {
      assert cross.None?;
    }
  }

  /** The rising series of thirty bars: the crossover happened right after the
      first bar, far outside the lookback. */
  lemma RisingThirtyBars(p: seq<real>)
    requires |p| == 30
    requires forall i, j :: 0 <= i < j < |p| ==> p[i] < p[j]
    ensures var r := Analyze(p).value;
      r.trend == BULLISH && r.crossoverPeriodsAgo.None? && r.strength == BASE_STRENGTH
  {
    StepUpSeries(p, 1);
  }

  /** Flat at 100 for 25 bars, then 200 for five: the jump is a bullish crossover
      exactly five periods back. */
  lemma JumpAfterFlatRun()
    ensures var r := Analyze(seq(30, i => if i < 25 then 100.0 else 200.0)).value;
      && r.trend == BULLISH
      && r.recentBullishCross
      && r.crossoverPeriodsAgo == Some(5)
      && r.strength == CROSS_STRENGTH
  {
    var p := seq(30, i => if i < 25 then 100.0 else 200.0);
    assert NonDecreasing(p);
    StepUpSeries(p, 25);
  }
}
